=== FILE: README.md ===
# Visual storage — a verified model of the map views, data layer and charts

This project models the logic core of the Visual Storage inventory app, a
React front end over a Supabase table of storage items. It covers:

- **The zoomable map view** (`InfiniteMap` and its drag hook). This is a
  camera with an offset and a scale, plus one node per item. It supports
  first-match hit testing, a pointer drag that either pans the camera or
  moves one node, an optimistic commit of the moved node with a revert when
  the store rejects the update, and a wheel zoom that keeps the point under
  the cursor fixed. Every handler is a pure transition over one state record.
  `Run` folds any event sequence and keeps the state invariant.
- **The legacy pan-only canvas** (`InfiniteCanvas`). It translates without
  zooming, re-anchors the pan on every move, and does not cap the node radius.
- **The data layer's retry policy** (`Supabase`).
  - `retryWithBackoff` runs over a sequence of attempt outcomes: the k-th
    call of the operation yields the k-th outcome.
  - The exponential backoff takes the value of `Math.random()` as a parameter.
  - The wrappers `getStorageItems`, `getCategories` and `updateStorageItem`
    turn every failure into `[]` or `false`. They use the default limit of
    three calls, so their outcome sequence holds at least three outcomes.
- **The list computations.**
  - The realtime merge of the item grid (`StorageGrid`).
  - Category counts and slice colours of the pie chart (`CategoryChart`).
  - Quantity per location (`LocationDistribution`).
  - The summary statistics (`VisualizationStats`).
  - The background particles (`Particles`).

How the model is built:

- Coordinates are `real`, so the inverse and anchoring laws hold exactly.
- A node reference (`Node | null` in the source, compared with `===`) is a
  `NodeRef`, one of three cases:
  - `InArray(i)` is the node at index `i` of the current array.
  - `Detached(n)` is an object that the array no longer holds. This happens
    when the array was rebuilt, or when a successful release replaced the
    committed node object while the hover still pointed at it.
  - `NoNode` is `null`.
- Both charts share one fold, `Tally.Tally`. It builds one entry per distinct
  name, in order of first appearance, carrying the total of the name's
  contributions.

In the map view, `updateDragging` measures every move from the pointer-down
point and never moves that anchor. `handleMouseMove` then adds half of that
whole displacement to the offset on every move. So the pan adds up half of each
move's distance from the anchor.
`InfiniteMapLaws.PanIsCumulativeFromAnchor` states this for any sequence of
moves. `InfiniteMapLaws.PanDependsOnMoveCount` shows the consequence: two moves
to the same point pan twice as far as one. The legacy canvas re-anchors on
every move, and its pan telescopes (`InfiniteCanvas.PanTelescopes`).

## Model

| member | source | states |
|---|---|---|
| CanvasTypes.HypotBelowRadius | src/components/visualization/InfiniteMap.tsx:179-180 | comparing the true distance with the radius (`Math.hypot(...) < radius`) is equivalent to the squared-distance test the model uses |
| CanvasTypes.FirstMatch | src/components/visualization/InfiniteMap.tsx:178-181 | `find` returns the first index, in array order, whose element is accepted; `None` exactly when no element is accepted |
| CanvasTypes.Detach | src/components/visualization/InfiniteMap.tsx:45-67 | after the node array is replaced, a reference to an old node is never an index into the new array; `null` stays `null` |
| NodeDragging.StartDragging | src/components/visualization/canvas/useNodeDragging.ts:10-15 | a drag starts: dragging on, the given node (possibly none) selected, anchored at the point, zero offset |
| NodeDragging.UpdateDragging | src/components/visualization/canvas/useNodeDragging.ts:17-26 | no drag: returns `null` and changes nothing; during a drag: anchor plus the returned displacement is the current point, the same displacement is stored as the offset, and the anchor and selection are unchanged |
| NodeDragging.StopDragging | src/components/visualization/canvas/useNodeDragging.ts:28-32 | dragging off, selection cleared, offset zero, anchor kept |
| NodeDragging.OffsetDependsOnlyOnLastPoint | src/components/visualization/canvas/useNodeDragging.ts:17-25 | after any non-empty sequence of updates during a drag, the offset is the last point minus the original anchor |
| NodeDragging.UpdatesWithoutDragAreInert | src/components/visualization/canvas/useNodeDragging.ts:17-18 | with no drag active, any number of updates leaves the state as it was |
| InfiniteMap.ScreenToWorld | src/components/visualization/InfiniteMap.tsx:28-31 | the world point returned maps back to the screen point under the same camera |
| InfiniteMap.WorldToScreen | src/components/visualization/InfiniteMap.tsx:34-37 | for a nonzero scale, the screen point returned maps back to the world point |
| InfiniteMap.TransformsAreInverse | src/components/visualization/InfiniteMap.tsx:28-37 | the two transforms are mutual inverses for every camera with a nonzero scale and any offset |
| InfiniteMap.NodeRadius | src/components/visualization/InfiniteMap.tsx:51 | the radius is 30 plus twice the quantity capped at 20; for a non-negative quantity it lies in [30, 70] |
| InfiniteMap.NodeRadiusMonotone | src/components/visualization/InfiniteMap.tsx:51 | a larger quantity never gives a smaller node |
| InfiniteMap.BuildNode | src/components/visualization/InfiniteMap.tsx:45-64 | the node keeps its item and the shared radius rule; it sits at the stored position when both coordinates are numbers, otherwise at the fallback layout position |
| InfiniteMap.BuildNodes | src/components/visualization/InfiniteMap.tsx:45-67 | one node per item, in item order, each holding its item, with the capped radius; an item with both coordinates keeps exactly those coordinates, and any other item sits at its fallback layout position |
| InfiniteMap.FindNode | src/components/visualization/InfiniteMap.tsx:178-181 | the node found is the first one, in array order, whose circle strictly contains the world point; none is found exactly when no circle contains it |
| InfiniteMap.InitialIsValid | src/components/visualization/InfiniteMap.tsx:13-16 | the mounted state (zero offset, scale 1, no nodes, no drag) satisfies the invariant |
| InfiniteMap.ItemsChanged | src/components/visualization/InfiniteMap.tsx:39-68 | nodes are rebuilt from the items; camera and drag state are kept; the selected and hovered references no longer point into the new array, but still hold the old node objects they referred to (an already stale reference is kept) |
| InfiniteMap.MouseDown | src/components/visualization/InfiniteMap.tsx:185-197 | a drag starts at the pointer; the selected node is the first node hit at the pointer's world position, and there is none (a pan) exactly when no node is hit; nothing else changes |
| InfiniteMap.MouseMove | src/components/visualization/InfiniteMap.tsx:156-183 | during a drag, the offset tracks the pointer; a pan moves the camera by half the displacement from the anchor, while a node drag leaves the camera alone; without a drag only the hovered node changes, and it is the first node hit |
| InfiniteMap.Moved | src/components/visualization/InfiniteMap.tsx:201-202 | the moved node is the node shifted by the drag offset divided by the scale, with item and radius unchanged |
| InfiniteMap.DrawnPosition | src/components/visualization/InfiniteMap.tsx:85-88 | the selected node in the array is drawn at its position plus the drag offset divided by the scale; every other node is drawn at its own position |
| InfiniteMap.MouseUp | src/components/visualization/InfiniteMap.tsx:199-228 | with a selected node, the update for its item carries the moved position, also when the selection went stale through a rebuild; on success only that node changes, to the moved node; on failure the array is the pre-release array; with no selected node nothing but the drag state changes; in every case the camera is kept and the drag is stopped |
| InfiniteMap.ReleaseHover | src/components/visualization/InfiniteMap.tsx:205-225 | a successful commit replaces the node object, so a hover on the committed node goes stale; otherwise the hover is kept |
| InfiniteMap.ZoomedScale | src/components/visualization/InfiniteMap.tsx:237-238 | the new scale is the requested scale clamped to [0.5, 2] |
| InfiniteMap.Wheel | src/components/visualization/InfiniteMap.tsx:230-245 | the world point under the cursor before the wheel is under the cursor after it; the scale is the clamped one; nodes and drag state are kept |
| InfiniteMap.Step | src/components/visualization/InfiniteMap.tsx:250-255 | every bound handler preserves the invariant: scale in range, references in bounds, selection only while dragging |
| InfiniteMap.Run | src/components/visualization/InfiniteMap.tsx:250-255 | any sequence of events preserves the invariant |
| InfiniteMapLaws.DragMoves | src/components/visualization/InfiniteMap.tsx:161-173 | during a drag, moves never change the nodes, hovered node, scale, anchor or selection; the offset is the last point minus the anchor; a node drag never moves the camera |
| InfiniteMapLaws.PanMoves | src/components/visualization/InfiniteMap.tsx:166-171 | in a pan, the offset grows by half the sum of every move's displacement from the anchor |
| InfiniteMapLaws.PanIsCumulativeFromAnchor | src/components/visualization/InfiniteMap.tsx:161-173 | a pointer-down on empty space followed by moves pans by half the sum of the displacements from the pointer-down point; scale and nodes are kept |
| InfiniteMapLaws.PanDependsOnMoveCount | src/components/visualization/InfiniteMap.tsx:166-171 | one move pans by half the displacement; two moves to the same point pan by the whole of it |
| InfiniteMapLaws.NodeDragCommits | src/components/visualization/InfiniteMap.tsx:199-227 | pointer-down on a node, moves, then release: only the clicked node changes, to its position plus the last displacement over the scale; it is restored when the update fails; the camera is kept and the drag is over |
| InfiniteMapLaws.DrawnPositionIsCommitted | src/components/visualization/InfiniteMap.tsx:85-88 | the position drawn for the dragged node is the one a successful release commits |
| InfiniteMapLaws.ScaleStaysInRange | src/components/visualization/InfiniteMap.tsx:237-240 | from mount, whatever events arrive, the scale stays in [0.5, 2] |
| InfiniteMapLaws.DragScenario | src/components/visualization/InfiniteMap.tsx:185-227 | a node at (100, 100) with radius 30 is grabbed at (100, 100); a move to (150, 100) draws it there; release commits (150, 100), or leaves (100, 100) when every update call fails |
| InfiniteMapLaws.ZoomScenario | src/components/visualization/InfiniteMap.tsx:230-245 | from the identity camera, wheel delta -200 at (400, 300) gives scale 1.2 and offset (-80, -60) |
| InfiniteCanvas.CanvasRadius | src/components/visualization/InfiniteCanvas.tsx:36 | the legacy radius is at least 30 for a non-negative quantity |
| InfiniteCanvas.RadiusUncapped | src/components/visualization/InfiniteCanvas.tsx:36 | the radius grows strictly with quantity, and past 20 it exceeds the zoomable map's capped radius |
| InfiniteCanvas.BuildNodes | src/components/visualization/InfiniteCanvas.tsx:31-41 | one node per item, in item order, at its layout position, with the uncapped radius and zero velocity |
| InfiniteCanvas.DrawPosition | src/components/visualization/InfiniteCanvas.tsx:60-61 | the drawn position minus the offset is the node's position |
| InfiniteCanvas.HoverMatchesDrawnCircle | src/components/visualization/InfiniteCanvas.tsx:99-115 | for a canvas whose top-left corner is at viewport point `rect`, hovering at the viewport point `client` is the same as `client + rect` lying inside the circle drawn for the node, so the hover area is the drawn circle shifted by `-rect`; it coincides with the drawn circle when the canvas is at the viewport origin |
| InfiniteCanvas.HoverMisalignedOffOrigin | src/components/visualization/InfiniteCanvas.tsx:99-100 | once the canvas is at least a radius away from the viewport origin, the pointer at the centre of a drawn circle is inside that circle but does not hover its node |
| InfiniteCanvas.LinkedSymmetric | src/components/visualization/InfiniteCanvas.tsx:65-67 | connections join distinct nodes less than 300 apart, and connection is symmetric and never joins a node to itself |
| InfiniteCanvas.MouseDown | src/components/visualization/InfiniteCanvas.tsx:124-127 | dragging starts, anchored at the client point; nothing else changes |
| InfiniteCanvas.MouseUp | src/components/visualization/InfiniteCanvas.tsx:128-129 | mouseup and mouseleave clear dragging; nothing else changes |
| InfiniteCanvas.MouseMove | src/components/visualization/InfiniteCanvas.tsx:98-117 | while dragging, the offset moves by the client point minus the anchor, and the anchor becomes the client point; otherwise only the hovered node changes: it is node `i` exactly when `i` is the first node within its radius of the client point minus the offset, and none exactly when no node is |
| InfiniteCanvas.ItemsChanged | src/components/visualization/InfiniteCanvas.tsx:25-44 | nodes are rebuilt; offset and drag state are kept; the hovered reference no longer points into the new array, but still holds the old node object, and `null` stays `null` |
| InfiniteCanvas.MoveAll | src/components/visualization/InfiniteCanvas.tsx:98-108 | moves keep the nodes, the drag flag and the invariant |
| InfiniteCanvas.PanTelescopes | src/components/visualization/InfiniteCanvas.tsx:102-108 | after pointer-down and any moves, the offset has moved by exactly the last point minus the pointer-down point |
| Supabase.RetryFrom | src/lib/supabase.ts:33-51 | a value is returned by the call that produced it; an error is rethrown by the call that raised it, and only at the limit or when it is not retryable; every earlier call failed retryably; each wait follows its failure count |
| Supabase.RetryWithBackoff | src/lib/supabase.ts:29-52 | with a limit of at least 1, at most that many calls, and the loop always settles once that many outcomes are available; a first success returns at once; a first non-retryable error is rethrown at once |
| Supabase.RetryableFailuresExhaust | src/lib/supabase.ts:39-44 | when every call fails retryably, the loop makes exactly the limit number of calls, waits in between, and rethrows the last error; with a limit of 0 or less it never stops |
| Supabase.BaseDelay | src/lib/supabase.ts:47 | the base delay is positive and never above 10000 ms |
| Supabase.BackoffDelay | src/lib/supabase.ts:47-49 | the wait lies in [base, base + 1000) ms for a random draw in [0, 1) |
| Supabase.DefaultBackoffWindows | src/lib/supabase.ts:46-49 | with the default limit of 3, there are at most two waits: the first in [2000, 3000) ms, the second in [4000, 5000) ms |
| Supabase.FetchRows | src/lib/supabase.ts:54-86 | `getStorageItems` and `getCategories` return the rows of the first error-free response within three calls, or `[]` when there is none |
| Supabase.UpdateStorageItem | src/lib/supabase.ts:88-103 | true exactly when some call within the three allowed acknowledged the update without an error, thrown or returned |
| Supabase.ReturnedErrorIsNotRetried | src/lib/supabase.ts:56-63 | an error returned inside the response ends the loop after one call, and no later call can deliver |
| Supabase.ReturnedErrorFails | src/lib/supabase.ts:88-102 | a response that returns an error makes the fetch give `[]` and the update give `false` |
| StorageGrid.Overlay | src/components/StorageGrid.tsx:30 | fields present in the payload override, and all others are kept |
| StorageGrid.ApplyUpdate | src/components/StorageGrid.tsx:27-33 | the length and the order of ids are preserved; items whose id differs from the payload's are unchanged; a matching item gets the payload overlaid |
| StorageGrid.OverlayIdempotent | src/components/StorageGrid.tsx:30 | overlaying the same payload twice is the same as overlaying it once |
| StorageGrid.ApplyUpdateIdempotent | src/components/StorageGrid.tsx:27-33 | applying the same notification twice gives the same list as applying it once |
| StorageGrid.ResetThenUpdates | src/components/StorageGrid.tsx:13-33 | after an `items` change and any notifications, the list has exactly the new items' ids in order, and an item no notification named is exactly as given |
| Tally.Bump | src/components/visualization/CategoryChart.tsx:14 | adding an amount under a name adds it to that name's total only; a new name adds one entry; names stay distinct |
| Tally.Tally | src/components/visualization/CategoryChart.tsx:13-21 | one entry per distinct name; each name's total equals its total over the contributions; the grand total is kept; there are no more entries than contributions |
| Tally.TallyEntryValue | src/components/visualization/CategoryChart.tsx:13-21 | each entry's value is the total of its name's contributions |
| Tally.UnitTotalIsCount | src/components/visualization/CategoryChart.tsx:14 | with unit contributions, a name's total is its number of occurrences, and it is at least 1 for every present name |
| Tally.DistinctNamesCount | src/components/visualization/VisualizationStats.tsx:11-12 | a list of distinct names has as many names as entries |
| CategoryChart.ContributionsCount | src/components/visualization/CategoryChart.tsx:13-16 | each category's contributions add up to its number of items |
| CategoryChart.ContributionsCover | src/components/visualization/CategoryChart.tsx:13-16 | all contributions add up to the number of items, and they name exactly the categories present |
| CategoryChart.CategoryData | src/components/visualization/CategoryChart.tsx:12-22 | every distinct category appears exactly once, with its number of items (at least 1); values sum to the number of items; an empty list gives empty data |
| CategoryChart.SliceColor | src/components/visualization/CategoryChart.tsx:38-40 | slice `i` is coloured with one of the five colours, the one at `i mod 5` |
| CategoryChart.ConsecutiveSlicesDiffer | src/components/visualization/CategoryChart.tsx:9 | any five consecutive slices have five different colours |
| CategoryChart.SliceColorsCycle | src/components/visualization/CategoryChart.tsx:39 | slice colours repeat with period five |
| LocationDistribution.ContributionsSum | src/components/visualization/LocationDistribution.tsx:11-14 | each location's contributions add up to the quantity of the items stored there |
| LocationDistribution.ContributionsCover | src/components/visualization/LocationDistribution.tsx:11-14 | all contributions add up to the total quantity, and they name exactly the locations present |
| LocationDistribution.LocationData | src/components/visualization/LocationDistribution.tsx:10-20 | every distinct location appears exactly once, with the sum of its items' quantities; the entries sum to the total quantity; no more entries than items; an empty list gives empty data |
| VisualizationStats.ComputeStats | src/components/visualization/VisualizationStats.tsx:9-20 | `itemTypes` is the number of items; the total is the sum of the location bars; the unique category and location counts are the numbers of pie slices and bars, both at most `itemTypes`; an empty list gives four zeros; a non-empty list gives both unique counts at least 1 |
| Particles.Scale | src/components/canvas/useParticles.ts:13-14 | a random draw times a positive extent lies in [0, extent) |
| Particles.CreateParticle | src/components/canvas/useParticles.ts:12-18 | a new particle lies in [0, width) by [0, height), its speeds lie in [-0.5, 0.5), and its radius lies in [1, 3) |
| Particles.ParticleCount | src/components/canvas/useParticles.ts:21 | the array length is the count, or 0 for a negative count |
| Particles.InitParticles | src/components/canvas/useParticles.ts:20-22 | exactly `count` particles, the i-th made from the i-th draws |
| Particles.DefaultInit | src/components/canvas/useParticles.ts:11-22 | with the default count there are 50 particles, each inside the canvas and within the speed and size ranges |
| Particles.UpdateParticle | src/components/canvas/useParticles.ts:24-30 | the position moves by exactly the speed; each speed component is negated exactly when the new coordinate leaves [0, extent]; speed magnitudes and radius are unchanged |
| Particles.FramesKeepSpeedAndSize | src/components/canvas/useParticles.ts:24-30 | after any number of frames, the speed magnitudes and the radius are as at the start |
| Particles.BounceTurnsInward | src/components/canvas/useParticles.ts:28-29 | a particle that was inside the canvas and crosses an edge comes out moving back inward |

## Left out

- Drawing is not modelled: the grid, arcs, labels, connection strokes, colours and the canvas resize. The drawn positions that matter are kept (`InfiniteMap.DrawnPosition`, `InfiniteCanvas.DrawPosition`).
- React machinery is not modelled: closures over stale state, listener re-registration on each dependency change, `requestAnimationFrame`. Handlers are sequential transitions over the current state.
- Event listeners pile up in the legacy canvas: its `mousedown`, `mouseup` and `mouseleave` listeners are never removed. The extra listeners set the same flags, so they are not modelled.
- InfiniteMap.ItemsChanged: the fallback circular layout uses `Math.random`, `cos` and `sin`, so it is a parameter (any point per item). The same holds for the legacy canvas's circle positions.
- InfiniteMap.MouseUp: release is one atomic step. The source awaits the update before calling `stopDragging`, so pointer events during the await, and interleavings of several pending commits with rebuilds, are not modelled.
- InfiniteMap.MouseUp: when the selected node went stale through a rebuild, the source still sends the update but changes no node. The model does the same; the store's later reply is outside the model.
- InfiniteMap: pointer coordinates are taken as already relative to the canvas, since the map subtracts the canvas's bounding rectangle (`clientX - rect.left`). The rectangle itself is not modelled.
- InfiniteCanvas.HoverMatchesDrawnCircle: the legacy canvas does not subtract its bounding rectangle. Its hover test and pan read raw viewport coordinates, so the hover area lines up with the drawn circles only when the canvas is at the viewport origin. The model keeps this misaligned hover as the source has it, and `InfiniteCanvas.HoverMisalignedOffOrigin` shows the gap.
- Storage.StorageItem: `quantity` is an `int`, while the record types it as any number; the item form only stores whole numbers, so fractional quantities are not modelled.
- IEEE-754 arithmetic is replaced by real arithmetic. Rounding, infinities and NaN are not modelled.
- CanvasTypes.HypotBelowRadius: the distance test is stated on squared distances, which agrees with `Math.hypot` over the reals but not bit for bit in floating point.
- Supabase.RetryWithBackoff: the operation's outcomes are a finite sequence. When the loop asks for more calls than the sequence holds, the result is `Unsettled`. This is how the endless loop for a limit of 0 or less shows up.
- Supabase.BackoffDelay: the waits are computed, but time itself, `setTimeout`, and what happens during a wait are not modelled.
- Supabase.FetchRows: it covers both `getStorageItems` and `getCategories`. The `StorageCategory` type that `getCategories` casts to is not part of this model, so the rows are of any type.
- The Supabase client, authentication, the realtime channel subscription and its teardown are not modelled. The realtime handler is modelled as a function of the payload.
- Tally.Tally: entries come out in order of first appearance. `Object.entries` lists integer-like keys first in ascending order, and that reordering is not modelled. Neither are names that collide with `Object.prototype` members (such as `toString`), for which `acc[name] || 0` does not start from 0.
- The logging done by `console.error` is not modelled.
- Particles.CreateParticle: the position bounds are stated for non-negative widths and heights only.
- Particles.UpdateParticle: the source mutates the particle in place; the model returns the updated value.
- Rendering helpers (`useCanvasRenderer`, `CanvasBackground`) and the UI plumbing (`App`, `AddItemForm`, `StorageCard`, `LandingPage`, `VisualizationPage`) are not part of this model.

=== FILE: canvas_types.dfy ===
/** Points, nodes and node references of the map views
    (src/components/visualization/canvas/types.ts). */
module CanvasTypes {
  import opened Wrappers
  import opened Storage

  datatype Point = Point(x: real, y: real)

  const Origin := Point(0.0, 0.0)

  function Add(a: Point, b: Point): Point
  {
    Point(a.x + b.x, a.y + b.y)
  }

  function Sub(a: Point, b: Point): Point
  {
    Point(a.x - b.x, a.y - b.y)
  }

  function Times(k: real, a: Point): Point
  {
    Point(k * a.x, k * a.y)
  }

  lemma AddTimesOrigin(a: Point, k: real)
    ensures Add(a, Times(k, Origin)) == a
  {
  }

  lemma TimesDistributes(k: real, a: Point, b: Point)
    ensures Times(k, Add(a, b)) == Add(Times(k, a), Times(k, b))
  {
    assert k * (a.x + b.x) == k * a.x + k * b.x;
    assert k * (a.y + b.y) == k * a.y + k * b.y;
  }

  /** Squared Euclidean distance; the model compares it against a squared
      radius instead of taking `Math.hypot`. */
  function DistSq(a: Point, b: Point): (d: real)
    ensures d >= 0.0
  {
    (a.x - b.x) * (a.x - b.x) + (a.y - b.y) * (a.y - b.y)
  }

  lemma DistSqSymmetric(a: Point, b: Point)
    ensures DistSq(a, b) == DistSq(b, a)
  {
    var dx, dy := a.x - b.x, a.y - b.y;
    assert (-dx) * (-dx) == dx * dx;
    assert (-dy) * (-dy) == dy * dy;
  }

  /** `Math.hypot(p - center) < radius`. */
  predicate WithinRadius(center: Point, radius: real, p: Point)
  {
    radius > 0.0 && DistSq(p, center) < radius * radius
  }

  /** `WithinRadius` agrees with comparing the true distance `h` (the value
      `Math.hypot` returns) against the radius. */
  lemma HypotBelowRadius(h: real, center: Point, radius: real, p: Point)
    requires h >= 0.0 && h * h == DistSq(p, center)
    ensures h < radius <==> WithinRadius(center, radius, p)
  {
    if h < radius {
      SquareStrictMono(h, radius);
    } else if radius > 0.0 {
      SquareMono(radius, h);
    }
  }

  lemma SquareStrictMono(a: real, b: real)
    requires 0.0 <= a < b
    ensures a * a < b * b
  {
    var aa, ab, bb := a * a, a * b, b * b;
    assert aa <= ab;
    assert ab < bb;
  }

  lemma SquareMono(a: real, b: real)
    requires 0.0 <= a <= b
    ensures a * a <= b * b
  {
    var aa, ab, bb := a * a, a * b, b * b;
    assert aa <= ab;
    assert ab <= bb;
  }

  /** Index of the first element at or after `k` satisfying `accept`: the
      order `Array.prototype.find` examines elements in. */
  function FirstMatchFrom<N>(xs: seq<N>, accept: N -> bool, k: nat): (r: Option<nat>)
    requires k <= |xs|
    decreases |xs| - k
    ensures r.Some? ==>
      && k <= r.value < |xs| && accept(xs[r.value])
      && forall j | k <= j < r.value :: !accept(xs[j])
    ensures r.None? ==> forall j | k <= j < |xs| :: !accept(xs[j])
  {
    if k == |xs| then None
    else if accept(xs[k]) then Some(k)
    else FirstMatchFrom(xs, accept, k + 1)
  }

  /** `xs.find(accept)`, as an index. */
  function FirstMatch<N>(xs: seq<N>, accept: N -> bool): (r: Option<nat>)
    ensures r.Some? ==>
      && r.value < |xs| && accept(xs[r.value])
      && forall j | 0 <= j < r.value :: !accept(xs[j])
    ensures r.None? ==> forall j | 0 <= j < |xs| :: !accept(xs[j])
  {
    FirstMatchFrom(xs, accept, 0)
  }

  /** A map node: world position, radius and the item it draws. */
  datatype Node = Node(pos: Point, radius: real, item: StorageItem)

  /** A `Node | null` held in component state. `InArray(i)` is the object at
      index `i` of the current node array; `Detached(n)` is an object that is no
      longer in the array (the array was rebuilt or the node was replaced), so
      `node === ref` is false for every node of the array. */
  datatype NodeRef<N> = NoNode | InArray(index: nat) | Detached(node: N)

  predicate RefInRange<N>(r: NodeRef<N>, n: nat)
  {
    r.InArray? ==> r.index < n
  }

  /** The reference after the node array `nodes` is replaced by a new array. */
  function Detach<N>(r: NodeRef<N>, nodes: seq<N>): (r': NodeRef<N>)
    ensures !r'.InArray?
    ensures r'.NoNode? <==> r.NoNode? || (r.InArray? && r.index >= |nodes|)
    ensures r.InArray? && r.index < |nodes| ==> r' == Detached(nodes[r.index])
    ensures r.Detached? ==> r' == r
  {
    match r
    case InArray(i) => if i < |nodes| then Detached(nodes[i]) else NoNode
    case _ => r
  }
}

=== FILE: category_chart.dfy ===
/** Items per category for the pie chart
    (src/components/visualization/CategoryChart.tsx). */
module CategoryChart {
  import opened Storage
  import opened Tally

  const Colors: seq<string> := ["#0088FE", "#00C49F", "#FFBB28", "#FF8042", "#8884D8"]

  /** Number of items whose category is `category`. */
  function CountCategory(items: seq<StorageItem>, category: string): nat
  {
    if |items| == 0 then 0
    else CountCategory(items[..|items| - 1], category) + (if items[|items| - 1].category == category then 1 else 0)
  }

  /** Each item contributes 1 under its category. */
  function Contributions(items: seq<StorageItem>): (cs: seq<Entry>)
    ensures |cs| == |items|
    ensures forall i | 0 <= i < |items| :: cs[i] == Entry(items[i].category, 1)
  {
    seq(|items|, i requires 0 <= i < |items| => Entry(items[i].category, 1))
  }

  /** Each category's contributions add up to its number of items. */
  lemma {:induction false} ContributionsCount(items: seq<StorageItem>, category: string)
    ensures CountFor(Contributions(items), category) == CountCategory(items, category)
  {
    if |items| > 0 {
      var init := items[..|items| - 1];
      var cs := Contributions(items);
      ContributionsCount(init, category);
      assert cs == Contributions(init) + [cs[|cs| - 1]];
      SnocSums(Contributions(init), cs[|cs| - 1]);
    }
  }

  /** All contributions add up to the number of items, and they name exactly
      the categories present. */
  lemma {:induction false} ContributionsCover(items: seq<StorageItem>)
    ensures Total(Contributions(items)) == |items|
    ensures Names(Contributions(items)) == Categories(items)
  {
    var cs := Contributions(items);
    if |items| > 0 {
      var init := items[..|items| - 1];
      ContributionsCover(init);
      assert cs == Contributions(init) + [cs[|cs| - 1]];
      SnocSums(Contributions(init), cs[|cs| - 1]);
    }
    assert forall c :: c in Names(cs) <==> c in Categories(items) by {
      forall c | c in Categories(items) ensures c in Names(cs) {
        var i :| 0 <= i < |items| && items[i].category == c;
        assert cs[i].name == c;
      }
    }
  }

  /** `categoryData`: one `{ name, value }` per distinct category, whose
      value is the number of items in that category. */
  function CategoryData(items: seq<StorageItem>): (data: seq<Entry>)
    ensures DistinctNames(data)
    ensures Names(data) == Categories(items)
    ensures forall k | 0 <= k < |data| :: data[k].value == CountCategory(items, data[k].name) >= 1
    ensures Total(data) == |items|
    ensures |data| <= |items|
    ensures |items| == 0 ==> data == []
  {
    var cs := Contributions(items);
    var data := Tally.Tally(cs);
    ContributionsCover(items);
    assert forall k | 0 <= k < |data| :: data[k].value == CountCategory(items, data[k].name) >= 1 by {
      forall k | 0 <= k < |data|
        ensures data[k].value == CountCategory(items, data[k].name) >= 1
      {
        var name := data[k].name;
        TallyEntryValue(cs, k);
        UnitTotalIsCount(cs, name);
        ContributionsCount(items, name);
        assert name in Names(data);
      }
    }
    data
  }

  /** `COLORS[index % COLORS.length]` for slice `index`. */
  function SliceColor(index: nat): (c: string)
    ensures c in Colors
    ensures c == Colors[index % |Colors|]
  {
    Colors[index % |Colors|]
  }

  /** Any five consecutive slices get five different colours. */
  lemma ConsecutiveSlicesDiffer(first: nat, a: nat, b: nat)
    requires first <= a < b < first + |Colors|
    ensures SliceColor(a) != SliceColor(b)
  {
    assert a % 5 != b % 5;
  }

  /** Slice colours repeat with period five. */
  lemma SliceColorsCycle(index: nat)
    ensures SliceColor(index + |Colors|) == SliceColor(index)
  {
  }
}

=== FILE: infinite_canvas.dfy ===
/** The legacy pan-only map (src/components/visualization/InfiniteCanvas.tsx):
    translation without zoom, a pan that re-anchors on every move, and an
    uncapped node radius. */
module InfiniteCanvas {
  import opened Wrappers
  import opened Storage
  import opened CanvasTypes
  import InfiniteMap

  const BaseRadius: real := 30.0
  const RadiusStep: real := 2.0
  const LinkDistance: real := 300.0

  /** A node with a (never used, always zero) velocity `(dx, dy)`. */
  datatype CanvasNode = CanvasNode(pos: Point, radius: real, item: StorageItem, velocity: Point)

  /** `30 + item.quantity * 2`, with no cap. */
  function CanvasRadius(quantity: int): (r: real)
    ensures quantity >= 0 ==> r >= BaseRadius
  {
    BaseRadius + quantity as real * RadiusStep
  }

  /** Every extra unit of quantity grows the node, and beyond 20 it outgrows
      the capped node of the zoomable map. */
  lemma RadiusUncapped(q: int, q': int)
    requires q < q'
    ensures CanvasRadius(q) < CanvasRadius(q')
    ensures q' > InfiniteMap.QuantityCap ==> CanvasRadius(q') > InfiniteMap.NodeRadius(q')
  {
  }

  /** The node rebuild: one node per item, in item order, at the circle
      position `layout[i]` (from `cos` and `sin` in the source). */
  function BuildNodes(items: seq<StorageItem>, layout: seq<Point>): (nodes: seq<CanvasNode>)
    requires |layout| == |items|
    ensures |nodes| == |items|
    ensures forall i | 0 <= i < |items| ::
      nodes[i] == CanvasNode(layout[i], CanvasRadius(items[i].quantity), items[i], Origin)
  {
    if |items| == 0 then []
    else
      BuildNodes(items[..|items| - 1], layout[..|items| - 1])
        + [CanvasNode(layout[|items| - 1], CanvasRadius(items[|items| - 1].quantity), items[|items| - 1], Origin)]
  }

  /** Where a node is drawn: its position translated by the pan offset. */
  function DrawPosition(n: CanvasNode, offset: Point): (d: Point)
    ensures Sub(d, offset) == n.pos
  {
    Add(n.pos, offset)
  }

  /** The hover rule: the pointer (a viewport point), moved back by the
      offset, lies strictly inside the node's circle. */
  predicate Hovers(n: CanvasNode, client: Point, offset: Point)
  {
    WithinRadius(n.pos, n.radius, Sub(client, offset))
  }

  /** The hover test reads raw viewport coordinates (`clientX`, `clientY`),
      while the circles are drawn in canvas coordinates. For a canvas whose
      top-left corner sits at viewport point `rect`, hovering at `client` is
      the same as the point `client + rect` lying inside the drawn circle
      (shifted by `rect`): the hover area is the drawn circle moved up and left
      by `rect`, and it lines up with the drawn circle exactly when the canvas
      is at the viewport origin. */
  lemma HoverMatchesDrawnCircle(n: CanvasNode, client: Point, offset: Point, rect: Point)
    ensures Hovers(n, client, offset) <==>
      WithinRadius(Add(rect, DrawPosition(n, offset)), n.radius, Add(client, rect))
    ensures rect == Origin ==>
      (Hovers(n, client, offset) <==> WithinRadius(Add(rect, DrawPosition(n, offset)), n.radius, client))
  {
    assert DistSq(Sub(client, offset), n.pos) == DistSq(Add(client, rect), Add(rect, DrawPosition(n, offset)));
    if rect == Origin {
      assert Add(client, rect) == client;
    }
  }

  /** The misalignment: once the canvas is at least a radius away from the
      viewport origin, pointing at the centre of the circle drawn for a node
      does not hover it. */
  lemma HoverMisalignedOffOrigin(n: CanvasNode, offset: Point, rect: Point)
    requires n.radius > 0.0 && DistSq(rect, Origin) >= n.radius * n.radius
    ensures var centre := Add(rect, DrawPosition(n, offset));
      WithinRadius(centre, n.radius, centre) && !Hovers(n, centre, offset)
  {
    var centre := Add(rect, DrawPosition(n, offset));
    assert Sub(Sub(centre, offset), n.pos) == rect;
    assert DistSq(Sub(centre, offset), n.pos) == DistSq(rect, Origin);
    SquareStrictMono(0.0, n.radius);
    assert DistSq(centre, centre) == 0.0;
  }

  /** A connection line joins two distinct nodes less than 300 apart. */
  predicate Linked(nodes: seq<CanvasNode>, i: nat, j: nat)
    requires i < |nodes| && j < |nodes|
  {
    WithinRadius(nodes[i].pos, LinkDistance, nodes[j].pos) && i != j
  }

  lemma LinkedSymmetric(nodes: seq<CanvasNode>, i: nat, j: nat)
    requires i < |nodes| && j < |nodes|
    ensures Linked(nodes, i, j) <==> Linked(nodes, j, i)
    ensures !Linked(nodes, i, i)
  {
    DistSqSymmetric(nodes[i].pos, nodes[j].pos);
  }

  /** Component state: the pan offset, the drag flag and anchor, the nodes,
      and the hovered node. */
  datatype CanvasState = CanvasState(
    offset: Point,
    isDragging: bool,
    dragStart: Point,
    nodes: seq<CanvasNode>,
    hoveredNode: NodeRef<CanvasNode>)

  const Initial := CanvasState(Origin, false, Origin, [], NoNode)

  predicate Valid(s: CanvasState)
  {
    RefInRange(s.hoveredNode, |s.nodes|)
  }

  /** `mousedown`: start panning, anchored at the client point. */
  function MouseDown(s: CanvasState, client: Point): (r: CanvasState)
    ensures r.isDragging && r.dragStart == client
    ensures r.offset == s.offset && r.nodes == s.nodes && r.hoveredNode == s.hoveredNode
  {
    s.(isDragging := true, dragStart := client)
  }

  /** `mouseup` and `mouseleave`: stop panning. */
  function MouseUp(s: CanvasState): (r: CanvasState)
    ensures !r.isDragging
    ensures r.offset == s.offset && r.dragStart == s.dragStart && r.nodes == s.nodes && r.hoveredNode == s.hoveredNode
  {
    s.(isDragging := false)
  }

  /** `handleMouseMove`: while panning, move the offset by the pointer's
      displacement from the anchor and re-anchor at the pointer; otherwise
      recompute the hovered node. */
  function MouseMove(s: CanvasState, client: Point): (r: CanvasState)
    requires Valid(s)
    ensures Valid(r) && r.nodes == s.nodes && r.isDragging == s.isDragging
    ensures s.isDragging ==>
      && Sub(r.offset, s.offset) == Sub(client, s.dragStart)
      && r.dragStart == client && r.hoveredNode == s.hoveredNode
    ensures !s.isDragging ==>
      && r.offset == s.offset && r.dragStart == s.dragStart
      && (r.hoveredNode.NoNode? <==> forall j | 0 <= j < |s.nodes| :: !Hovers(s.nodes[j], client, s.offset))
      && (forall i: nat :: r.hoveredNode == InArray(i) <==>
            i < |s.nodes| && Hovers(s.nodes[i], client, s.offset)
            && forall j | 0 <= j < i :: !Hovers(s.nodes[j], client, s.offset))
  {
    if s.isDragging then
      s.(offset := Add(s.offset, Sub(client, s.dragStart)), dragStart := client)
    else
      var found := FirstMatch(s.nodes, n => Hovers(n, client, s.offset));
      s.(hoveredNode := if found.Some? then InArray(found.value) else NoNode)
  }

  /** The `[items]` effect: nodes rebuilt, offset and drag state kept. */
  function ItemsChanged(s: CanvasState, items: seq<StorageItem>, layout: seq<Point>): (r: CanvasState)
    requires |layout| == |items|
    ensures Valid(r) && r.nodes == BuildNodes(items, layout)
    ensures r.offset == s.offset && r.isDragging == s.isDragging && r.dragStart == s.dragStart
    ensures !r.hoveredNode.InArray?
    ensures r.hoveredNode.NoNode? <==> s.hoveredNode.NoNode? || (s.hoveredNode.InArray? && s.hoveredNode.index >= |s.nodes|)
    ensures s.hoveredNode.InArray? && s.hoveredNode.index < |s.nodes| ==> r.hoveredNode == Detached(s.nodes[s.hoveredNode.index])
  {
    s.(nodes := BuildNodes(items, layout), hoveredNode := Detach(s.hoveredNode, s.nodes))
  }

  /** The state after a sequence of `mousemove` events. */
  function MoveAll(s: CanvasState, points: seq<Point>): (r: CanvasState)
    requires Valid(s)
    ensures Valid(r) && r.isDragging == s.isDragging && r.nodes == s.nodes
  {
    if |points| == 0 then s else MouseMove(MoveAll(s, points[..|points| - 1]), points[|points| - 1])
  }

  /** The pan telescopes: after pointer-down at `down` and any moves, the
      offset has moved by exactly the last point minus `down`, and the anchor
      is the last point. */
  lemma {:induction false} PanTelescopes(s: CanvasState, down: Point, points: seq<Point>)
    requires Valid(s) && |points| > 0
    ensures var r := MoveAll(MouseDown(s, down), points);
      && Sub(r.offset, s.offset) == Sub(points[|points| - 1], down)
      && r.dragStart == points[|points| - 1]
  {
    var n := |points|;
    if n > 1 {
      PanTelescopes(s, down, points[..n - 1]);
    }
  }
}

=== FILE: infinite_map.dfy ===
/** The viewport engine of the map view
    (src/components/visualization/InfiniteMap.tsx): camera, node rebuild,
    hit testing, pan, node drag with optimistic commit, and cursor-anchored
    zoom. Event handlers are pure transitions over one state record. */
module InfiniteMap {
  import opened Wrappers
  import opened Storage
  import opened CanvasTypes
  import opened NodeDragging
  import Supabase

  const MinScale: real := 0.5
  const MaxScale: real := 2.0
  const ZoomStep: real := 0.001
  const PanDamping: real := 0.5
  const BaseRadius: real := 30.0
  const RadiusStep: real := 2.0
  const QuantityCap: int := 20

  /** Pan offset (screen units) and zoom factor. */
  datatype Camera = Camera(offset: Point, scale: real)

  const InitialCamera := Camera(Origin, 1.0)

  /** `screenToWorld(screenX, screenY)`. */
  function ScreenToWorld(c: Camera, s: Point): (w: Point)
    requires c.scale != 0.0
    ensures w.x * c.scale + c.offset.x == s.x && w.y * c.scale + c.offset.y == s.y
  {
    Point((s.x - c.offset.x) / c.scale, (s.y - c.offset.y) / c.scale)
  }

  /** `worldToScreen(worldX, worldY)`. */
  function WorldToScreen(c: Camera, w: Point): (s: Point)
    ensures c.scale != 0.0 ==> (s.x - c.offset.x) / c.scale == w.x && (s.y - c.offset.y) / c.scale == w.y
  {
    Point(w.x * c.scale + c.offset.x, w.y * c.scale + c.offset.y)
  }

  /** The two transforms undo each other for every camera with a nonzero scale. */
  lemma TransformsAreInverse(c: Camera, p: Point)
    requires c.scale != 0.0
    ensures ScreenToWorld(c, WorldToScreen(c, p)) == p
    ensures WorldToScreen(c, ScreenToWorld(c, p)) == p
  {
  }

  /** `30 + Math.min(quantity, 20) * 2`, used by both rebuild branches. */
  function NodeRadius(quantity: int): (r: real)
    ensures quantity >= 0 ==> BaseRadius <= r <= BaseRadius + RadiusStep * QuantityCap as real
    ensures quantity >= QuantityCap ==> r == BaseRadius + RadiusStep * QuantityCap as real
    ensures quantity <= QuantityCap ==> r == BaseRadius + RadiusStep * quantity as real
  {
    BaseRadius + (if quantity < QuantityCap then quantity else QuantityCap) as real * RadiusStep
  }

  /** A larger quantity never gives a smaller node. */
  lemma NodeRadiusMonotone(q: int, q': int)
    requires q <= q'
    ensures NodeRadius(q) <= NodeRadius(q')
  {
  }

  /** The node for `item`: its stored position when both coordinates are
      numbers, otherwise `fallback`, the circular-layout position (computed
      from `Math.random`, `cos` and `sin` in the source, so any point here). */
  function BuildNode(item: StorageItem, fallback: Point): (n: Node)
    ensures n.item == item && n.radius == NodeRadius(item.quantity)
    ensures item.x.Some? && item.y.Some? ==> n.pos == Point(item.x.value, item.y.value)
    ensures !(item.x.Some? && item.y.Some?) ==> n.pos == fallback
  {
    if item.x.Some? && item.y.Some? then Node(Point(item.x.value, item.y.value), NodeRadius(item.quantity), item)
    else Node(fallback, NodeRadius(item.quantity), item)
  }

  /** The node rebuild effect: one node per item, in item order. */
  function BuildNodes(items: seq<StorageItem>, fallback: seq<Point>): (nodes: seq<Node>)
    requires |fallback| == |items|
    ensures |nodes| == |items|
    ensures forall i | 0 <= i < |items| :: nodes[i] == BuildNode(items[i], fallback[i])
  {
    if |items| == 0 then []
    else BuildNodes(items[..|items| - 1], fallback[..|items| - 1]) + [BuildNode(items[|items| - 1], fallback[|items| - 1])]
  }

  /** The hit rule of both `nodes.find` calls: the world point lies strictly
      inside the node's circle. */
  predicate Hit(n: Node, world: Point)
  {
    WithinRadius(n.pos, n.radius, world)
  }

  /** Node `i` is the first node, in array order, hit by `world`. */
  predicate IsFirstHit(nodes: seq<Node>, world: Point, i: nat)
  {
    i < |nodes| && Hit(nodes[i], world) && forall j | 0 <= j < i :: !Hit(nodes[j], world)
  }

  /** `nodes.find(node => Math.hypot(...) < node.radius)`: the first node hit,
      or `None` when no node is hit. */
  function FindNode(nodes: seq<Node>, world: Point): (r: Option<nat>)
    ensures forall i: nat :: r == Some(i) <==> IsFirstHit(nodes, world, i)
    ensures r.None? <==> forall j | 0 <= j < |nodes| :: !Hit(nodes[j], world)
  {
    FirstMatch(nodes, n => Hit(n, world))
  }

  function ToRef(found: Option<nat>): NodeRef<Node>
  {
    if found.Some? then InArray(found.value) else NoNode
  }

  /** Component state: camera, nodes, the drag hook's state, hovered node. */
  datatype MapState = MapState(camera: Camera, nodes: seq<Node>, drag: DragState, hoveredNode: NodeRef<Node>)

  /** What the component preserves: the scale stays in its range, references
      into the node array are in bounds, and a node is selected only during
      a drag. */
  predicate Valid(s: MapState)
  {
    && MinScale <= s.camera.scale <= MaxScale
    && RefInRange(s.drag.selectedNode, |s.nodes|)
    && RefInRange(s.hoveredNode, |s.nodes|)
    && SelectionOnlyWhileDragging(s.drag)
  }

  /** The state on mount: identity camera, no nodes, idle drag. */
  const Initial := MapState(InitialCamera, [], NodeDragging.Initial, NoNode)

  lemma InitialIsValid()
    ensures Valid(Initial)
  {
  }

  /** The `[items]` effect: nodes are rebuilt wholesale; camera and drag
      state survive, and references to old nodes go stale. */
  function ItemsChanged(s: MapState, items: seq<StorageItem>, fallback: seq<Point>): (r: MapState)
    requires Valid(s) && |fallback| == |items|
    ensures Valid(r)
    ensures r.nodes == BuildNodes(items, fallback)
    ensures r.camera == s.camera && r.drag.isDragging == s.drag.isDragging
    ensures r.drag.dragStart == s.drag.dragStart && r.drag.dragOffset == s.drag.dragOffset
    ensures r.drag.selectedNode.NoNode? <==> s.drag.selectedNode.NoNode?
    ensures !r.drag.selectedNode.InArray? && !r.hoveredNode.InArray?
    ensures r.drag.selectedNode == Detach(s.drag.selectedNode, s.nodes) && r.hoveredNode == Detach(s.hoveredNode, s.nodes)
  {
    s.(nodes := BuildNodes(items, fallback),
       drag := s.drag.(selectedNode := Detach(s.drag.selectedNode, s.nodes)),
       hoveredNode := Detach(s.hoveredNode, s.nodes))
  }

  /** `handleMouseDown`: start a drag on the first node under the pointer,
      or a pan when there is none. */
  function MouseDown(s: MapState, p: Point): (r: MapState)
    requires Valid(s)
    ensures Valid(r)
    ensures r.drag.isDragging && r.drag.dragStart == p && r.drag.dragOffset == Origin
    ensures forall i: nat :: r.drag.selectedNode == InArray(i) <==> IsFirstHit(s.nodes, ScreenToWorld(s.camera, p), i)
    ensures r.drag.selectedNode.NoNode? <==> forall j | 0 <= j < |s.nodes| :: !Hit(s.nodes[j], ScreenToWorld(s.camera, p))
    ensures r.camera == s.camera && r.nodes == s.nodes && r.hoveredNode == s.hoveredNode
  {
    var clicked := FindNode(s.nodes, ScreenToWorld(s.camera, p));
    s.(drag := StartDragging(s.drag, ToRef(clicked), p))
  }

  /** `handleMouseMove`: during a drag, update the drag offset and, in a pan,
      move the camera by half the pointer's displacement from the pointer-down
      point; otherwise recompute the hovered node. */
  function MouseMove(s: MapState, p: Point): (r: MapState)
    requires Valid(s)
    ensures Valid(r)
    ensures r.nodes == s.nodes && r.camera.scale == s.camera.scale
    ensures s.drag.isDragging ==>
      && r.drag == UpdateDragging(s.drag, p).1
      && r.hoveredNode == s.hoveredNode
      && r.camera.offset == (if s.drag.selectedNode.NoNode?
                             then Add(s.camera.offset, Times(PanDamping, Sub(p, s.drag.dragStart)))
                             else s.camera.offset)
    ensures !s.drag.isDragging ==>
      && r.drag == s.drag && r.camera == s.camera
      && (forall i: nat :: r.hoveredNode == InArray(i) <==> IsFirstHit(s.nodes, ScreenToWorld(s.camera, p), i))
      && (r.hoveredNode.NoNode? <==> forall j | 0 <= j < |s.nodes| :: !Hit(s.nodes[j], ScreenToWorld(s.camera, p)))
  {
    if s.drag.isDragging then
      var (delta, drag') := UpdateDragging(s.drag, p);
      if delta.Some? && !s.drag.selectedNode.NoNode? then s.(drag := drag')
      else if delta.Some? then
        s.(drag := drag', camera := s.camera.(offset := Add(s.camera.offset, Times(PanDamping, delta.value))))
      else s.(drag := drag')
    else
      s.(hoveredNode := ToRef(FindNode(s.nodes, ScreenToWorld(s.camera, p))))
  }

  /** The persisted partial update `{ x, y }` for the item `id`. */
  datatype PositionUpdate = PositionUpdate(id: string, x: real, y: real)

  /** The node moved by the drag offset, converted to world units with the
      current scale. */
  function Moved(n: Node, dragOffset: Point, scale: real): (m: Node)
    requires scale != 0.0
    ensures m.radius == n.radius && m.item == n.item
    ensures Add(n.pos, Times(1.0 / scale, dragOffset)) == m.pos
  {
    n.(pos := Point(n.pos.x + dragOffset.x / scale, n.pos.y + dragOffset.y / scale))
  }

  /** Where node `i` is drawn in world units: the dragged node follows the
      drag offset before it is committed. */
  function DrawnPosition(s: MapState, i: nat): (p: Point)
    requires Valid(s) && i < |s.nodes|
    ensures s.drag.selectedNode == InArray(i) ==> p == Add(s.nodes[i].pos, Times(1.0 / s.camera.scale, s.drag.dragOffset))
    ensures s.drag.selectedNode != InArray(i) ==> p == s.nodes[i].pos
  {
    if s.drag.selectedNode == InArray(i) then Moved(s.nodes[i], s.drag.dragOffset, s.camera.scale).pos
    else s.nodes[i].pos
  }

  /** `handleMouseUp` (also bound to `mouseleave`). With a selected node it
      commits the moved position locally, persists it through
      `updateStorageItem`, whose calls yield `store`, and restores the
      previous array when that reports failure. The drag is stopped in every
      case. The second component is the update sent to the store, if any. */
  function MouseUp(s: MapState, store: seq<Supabase.Attempt<Supabase.Response<()>>>): (r: (MapState, Option<PositionUpdate>))
    requires Valid(s) && |store| >= Supabase.DefaultMaxRetries
    ensures Valid(r.0)
    ensures r.0.camera == s.camera && |r.0.nodes| == |s.nodes|
    ensures !r.0.drag.isDragging && r.0.drag.selectedNode.NoNode? && r.0.drag.dragOffset == Origin
    ensures r.0.drag.dragStart == s.drag.dragStart
    ensures s.drag.selectedNode.NoNode? ==> r.0.nodes == s.nodes && r.0.hoveredNode == s.hoveredNode && r.1.None?
    ensures !Supabase.UpdateStorageItem(store) ==> r.0.nodes == s.nodes
    ensures s.drag.selectedNode.Detached? ==>
      var n := s.drag.selectedNode.node;
      var m := Moved(n, s.drag.dragOffset, s.camera.scale);
      && r.0.nodes == s.nodes
      && r.1 == Some(PositionUpdate(n.item.id, m.pos.x, m.pos.y))
    ensures s.drag.selectedNode.InArray? ==>
      var i := s.drag.selectedNode.index;
      var m := Moved(s.nodes[i], s.drag.dragOffset, s.camera.scale);
      && r.1 == Some(PositionUpdate(s.nodes[i].item.id, m.pos.x, m.pos.y))
      && (Supabase.UpdateStorageItem(store) ==> r.0.nodes[i] == m)
      && forall j | 0 <= j < |s.nodes| && j != i :: r.0.nodes[j] == s.nodes[j]
  {
    var d := s.drag;
    match d.selectedNode
    case NoNode => (s.(drag := StopDragging(d)), None)
    case Detached(n) =>
      var m := Moved(n, d.dragOffset, s.camera.scale);
      (s.(drag := StopDragging(d)), Some(PositionUpdate(n.item.id, m.pos.x, m.pos.y)))
    case InArray(i) =>
      var m := Moved(s.nodes[i], d.dragOffset, s.camera.scale);
      var optimistic := s.nodes[i := m];
      var ok := Supabase.UpdateStorageItem(store);
      var hovered := if ok && s.hoveredNode == InArray(i) then Detached(s.nodes[i]) else s.hoveredNode;
      (s.(nodes := if ok then optimistic else s.nodes, drag := StopDragging(d), hoveredNode := hovered),
       Some(PositionUpdate(s.nodes[i].item.id, m.pos.x, m.pos.y)))
  }

  /** What a release does to the hovered node: a successful commit replaces
      the node object, so a hover on the committed node goes stale; in every
      other case the hover is kept. */
  lemma ReleaseHover(s: MapState, store: seq<Supabase.Attempt<Supabase.Response<()>>>)
    requires Valid(s) && |store| >= Supabase.DefaultMaxRetries
    ensures MouseUp(s, store).0.hoveredNode ==
      if s.drag.selectedNode.InArray? && s.hoveredNode == s.drag.selectedNode && Supabase.UpdateStorageItem(store)
      then Detached(s.nodes[s.drag.selectedNode.index]) else s.hoveredNode
  {
  }

  /** `Math.min(Math.max(0.5, scale - deltaY * 0.001), 2)`. */
  function ZoomedScale(scale: real, deltaY: real): (r: real)
    ensures MinScale <= r <= MaxScale
    ensures MinScale <= scale - deltaY * ZoomStep <= MaxScale ==> r == scale - deltaY * ZoomStep
    ensures scale - deltaY * ZoomStep < MinScale ==> r == MinScale
    ensures scale - deltaY * ZoomStep > MaxScale ==> r == MaxScale
  {
    var wanted := scale + -deltaY * ZoomStep;
    var atLeast := if MinScale > wanted then MinScale else wanted;
    if atLeast < MaxScale then atLeast else MaxScale
  }

  /** `handleWheel`: clamp the new scale and move the offset so that the
      world point under the cursor stays under the cursor. */
  function Wheel(s: MapState, p: Point, deltaY: real): (r: MapState)
    requires Valid(s)
    ensures Valid(r)
    ensures r.camera.scale == ZoomedScale(s.camera.scale, deltaY)
    ensures WorldToScreen(r.camera, ScreenToWorld(s.camera, p)) == p
    ensures ScreenToWorld(r.camera, p) == ScreenToWorld(s.camera, p)
    ensures r.nodes == s.nodes && r.drag == s.drag && r.hoveredNode == s.hoveredNode
  {
    var world := ScreenToWorld(s.camera, p);
    var scale' := ZoomedScale(s.camera.scale, deltaY);
    var r := s.(camera := Camera(Point(p.x - world.x * scale', p.y - world.y * scale'), scale'));
    TransformsAreInverse(r.camera, world);
    r
  }

  /** The pointer and data events the component reacts to. Pointer points
      are relative to the canvas (`clientX - rect.left`, `clientY - rect.top`). */
  datatype MapEvent =
    | Down(p: Point)
    | Move(p: Point)
    | Up(store: seq<Supabase.Attempt<Supabase.Response<()>>>)
    | Leave(store: seq<Supabase.Attempt<Supabase.Response<()>>>)
    | Scroll(p: Point, deltaY: real)
    | Reload(items: seq<StorageItem>, fallback: seq<Point>)

  /** The event carries what its handler needs: an outcome for every call
      the update may make, a fallback position for every item. */
  predicate WellFormed(e: MapEvent)
  {
    match e
    case Up(store) => |store| >= Supabase.DefaultMaxRetries
    case Leave(store) => |store| >= Supabase.DefaultMaxRetries
    case Reload(items, fallback) => |fallback| == |items|
    case _ => true
  }

  function Step(s: MapState, e: MapEvent): (r: MapState)
    requires Valid(s) && WellFormed(e)
    ensures Valid(r)
  {
    match e
    case Down(p) => MouseDown(s, p)
    case Move(p) => MouseMove(s, p)
    case Up(store) => MouseUp(s, store).0
    case Leave(store) => MouseUp(s, store).0
    case Scroll(p, deltaY) => Wheel(s, p, deltaY)
    case Reload(items, fallback) => ItemsChanged(s, items, fallback)
  }

  predicate AllWellFormed(events: seq<MapEvent>)
  {
    forall k | 0 <= k < |events| :: WellFormed(events[k])
  }

  /** The state after handling `events` in order. */
  function Run(s: MapState, events: seq<MapEvent>): (r: MapState)
    requires Valid(s) && AllWellFormed(events)
    ensures Valid(r)
  {
    if |events| == 0 then s else Step(Run(s, events[..|events| - 1]), events[|events| - 1])
  }
}

=== FILE: infinite_map_laws.dfy ===
/** Laws of the map view over sequences of events
    (src/components/visualization/InfiniteMap.tsx). */
module InfiniteMapLaws {
  import opened Wrappers
  import opened Storage
  import opened CanvasTypes
  import opened NodeDragging
  import opened InfiniteMap
  import Supabase

  /** One `mousemove` event per point. */
  function Moves(points: seq<Point>): (events: seq<MapEvent>)
    ensures |events| == |points| && AllWellFormed(events)
    ensures forall k | 0 <= k < |points| :: events[k] == Move(points[k])
  {
    seq(|points|, k requires 0 <= k < |points| => Move(points[k]))
  }

  /** The sum, over all points, of the point's displacement from `anchor`. */
  function DisplacementSum(points: seq<Point>, anchor: Point): Point
  {
    if |points| == 0 then Origin
    else Add(DisplacementSum(points[..|points| - 1], anchor), Sub(points[|points| - 1], anchor))
  }

  /** Handling one more move is one more `MouseMove`. */
  lemma RunMovesSnoc(s: MapState, points: seq<Point>)
    requires Valid(s) && |points| > 0
    ensures Run(s, Moves(points)) == MouseMove(Run(s, Moves(points[..|points| - 1])), points[|points| - 1])
  {
    assert Moves(points)[..|points| - 1] == Moves(points[..|points| - 1]);
  }

  /** During a drag, moves never touch the nodes, the hovered node or the
      scale, and the drag offset is the last point minus the unchanging
      anchor. */
  lemma {:induction false} DragMoves(s: MapState, points: seq<Point>)
    requires Valid(s) && s.drag.isDragging
    ensures var r := Run(s, Moves(points));
      && r.nodes == s.nodes && r.hoveredNode == s.hoveredNode && r.camera.scale == s.camera.scale
      && r.drag.isDragging && r.drag.dragStart == s.drag.dragStart
      && r.drag.selectedNode == s.drag.selectedNode
      && r.drag.dragOffset == (if |points| == 0 then s.drag.dragOffset else Sub(points[|points| - 1], s.drag.dragStart))
      && (!s.drag.selectedNode.NoNode? ==> r.camera.offset == s.camera.offset)
  {
    var n := |points|;
    if n > 0 {
      DragMoves(s, points[..n - 1]);
      RunMovesSnoc(s, points);
    }
  }

  /** One pan move adds half its displacement from the anchor. */
  lemma PanStep(prev: MapState, p: Point, origin: Point, before: Point)
    requires Valid(prev) && prev.drag.isDragging && prev.drag.selectedNode.NoNode?
    requires prev.camera.offset == Add(origin, Times(PanDamping, before))
    ensures MouseMove(prev, p).camera.offset
      == Add(origin, Times(PanDamping, Add(before, Sub(p, prev.drag.dragStart))))
  {
    var step := Sub(p, prev.drag.dragStart);
    TimesDistributes(PanDamping, before, step);
  }

  /** A pan adds half of EVERY move's displacement from the anchor to the
      offset. */
  lemma {:induction false} PanMoves(s: MapState, points: seq<Point>)
    requires Valid(s) && s.drag.isDragging && s.drag.selectedNode.NoNode?
    ensures Run(s, Moves(points)).camera.offset
      == Add(s.camera.offset, Times(PanDamping, DisplacementSum(points, s.drag.dragStart)))
  {
    var n := |points|;
    if n == 0 {
      assert Moves(points) == [];
      AddTimesOrigin(s.camera.offset, PanDamping);
    } else {
      var init := points[..n - 1];
      PanMoves(s, init);
      DragMoves(s, init);
      RunMovesSnoc(s, points);
      PanStep(Run(s, Moves(init)), points[n - 1], s.camera.offset, DisplacementSum(init, s.drag.dragStart));
    }
  }

  /** Pointer-down on empty space, then moves: the offset grows by half the
      sum of the displacements of every move from the pointer-down point,
      not by the pointer's net displacement. */
  lemma PanIsCumulativeFromAnchor(s: MapState, down: Point, points: seq<Point>)
    requires Valid(s) && FindNode(s.nodes, ScreenToWorld(s.camera, down)).None?
    ensures var r := Run(MouseDown(s, down), Moves(points));
      && r.camera == Camera(Add(s.camera.offset, Times(PanDamping, DisplacementSum(points, down))), s.camera.scale)
      && r.nodes == s.nodes
  {
    DragMoves(MouseDown(s, down), points);
    PanMoves(MouseDown(s, down), points);
  }

  /** Consequence of the cumulative delta: two moves to the same point pan
      twice as far as one. */
  lemma PanDependsOnMoveCount(s: MapState, down: Point, p: Point)
    requires Valid(s) && FindNode(s.nodes, ScreenToWorld(s.camera, down)).None?
    ensures Run(MouseDown(s, down), Moves([p])).camera.offset == Add(s.camera.offset, Times(PanDamping, Sub(p, down)))
    ensures Run(MouseDown(s, down), Moves([p, p])).camera.offset == Add(s.camera.offset, Sub(p, down))
  {
    PanIsCumulativeFromAnchor(s, down, [p]);
    PanIsCumulativeFromAnchor(s, down, [p, p]);
    assert [p, p][..1] == [p];
    assert [p][..0] == [];
  }

  /** Pointer-down on a node, moves, release: exactly the clicked node moves,
      by the last point's displacement divided by the scale; a failed update
      restores the array; the camera is untouched and the drag is over. */
  lemma NodeDragCommits(s: MapState, down: Point, points: seq<Point>, store: seq<Supabase.Attempt<Supabase.Response<()>>>)
    requires Valid(s) && |store| >= Supabase.DefaultMaxRetries
    requires FindNode(s.nodes, ScreenToWorld(s.camera, down)).Some?
    ensures var i := FindNode(s.nodes, ScreenToWorld(s.camera, down)).value;
      var total := if |points| == 0 then Origin else Sub(points[|points| - 1], down);
      var m := Moved(s.nodes[i], total, s.camera.scale);
      var (r, sent) := MouseUp(Run(MouseDown(s, down), Moves(points)), store);
      && r.camera == s.camera
      && |r.nodes| == |s.nodes|
      && (forall j | 0 <= j < |s.nodes| && j != i :: r.nodes[j] == s.nodes[j])
      && (Supabase.UpdateStorageItem(store) ==> r.nodes[i] == m)
      && (!Supabase.UpdateStorageItem(store) ==> r.nodes == s.nodes)
      && sent == Some(PositionUpdate(s.nodes[i].item.id, m.pos.x, m.pos.y))
      && !r.drag.isDragging && r.drag.selectedNode.NoNode?
  {
    DragMoves(MouseDown(s, down), points);
  }

  /** The position drawn for the dragged node is the one a successful
      release commits. */
  lemma DrawnPositionIsCommitted(s: MapState, store: seq<Supabase.Attempt<Supabase.Response<()>>>)
    requires Valid(s) && |store| >= Supabase.DefaultMaxRetries && s.drag.selectedNode.InArray?
    requires Supabase.UpdateStorageItem(store)
    ensures MouseUp(s, store).0.nodes[s.drag.selectedNode.index].pos == DrawnPosition(s, s.drag.selectedNode.index)
  {
  }

  /** From mount, whatever events arrive, the scale stays in [0.5, 2]. */
  lemma ScaleStaysInRange(events: seq<MapEvent>)
    requires AllWellFormed(events)
    ensures MinScale <= Run(InfiniteMap.Initial, events).camera.scale <= MaxScale
  {
  }

  const SampleItem := StorageItem("a", "Box", 0, "tools", "shed", "", Some(100.0), Some(100.0))

  /** Every call of the update fails with a non-retryable error. */
  const FailingStore: seq<Supabase.Attempt<Supabase.Response<()>>> :=
    [Supabase.Threw(Supabase.ErrorInfo(Some(404), None)),
     Supabase.Threw(Supabase.ErrorInfo(Some(404), None)),
     Supabase.Threw(Supabase.ErrorInfo(Some(404), None))]

  /** Every call of the update succeeds. */
  const AcceptingStore: seq<Supabase.Attempt<Supabase.Response<()>>> :=
    [Supabase.Returned(Supabase.Response((), None)),
     Supabase.Returned(Supabase.Response((), None)),
     Supabase.Returned(Supabase.Response((), None))]

  /** Identity camera, one node at (100, 100) with radius 30: pointer-down at
      (100, 100) grabs it, a move to (150, 100) draws it at (150, 100), and
      release commits (150, 100) or, when the update fails, leaves it at
      (100, 100). */
  lemma DragScenario()
    ensures var s := InfiniteMap.Initial.(nodes := [Node(Point(100.0, 100.0), 30.0, SampleItem)]);
      var down := MouseDown(s, Point(100.0, 100.0));
      var moved := MouseMove(down, Point(150.0, 100.0));
      && down.drag.selectedNode == InArray(0)
      && moved.drag.dragOffset == Point(50.0, 0.0)
      && DrawnPosition(moved, 0) == Point(150.0, 100.0)
      && MouseUp(moved, AcceptingStore).0.nodes[0].pos == Point(150.0, 100.0)
      && MouseUp(moved, FailingStore).0.nodes[0].pos == Point(100.0, 100.0)
  {
    var s := InfiniteMap.Initial.(nodes := [Node(Point(100.0, 100.0), 30.0, SampleItem)]);
    assert Hit(s.nodes[0], ScreenToWorld(s.camera, Point(100.0, 100.0)));
    assert Supabase.Delivered(AcceptingStore, 0);
    assert !Supabase.Retryable(FailingStore[0].error);
  }

  /** Identity camera, wheel delta -200 at (400, 300): the scale becomes 1.2
      and the offset (-80, -60). */
  lemma ZoomScenario()
    ensures var r := Wheel(InfiniteMap.Initial, Point(400.0, 300.0), -200.0);
      r.camera == Camera(Point(-80.0, -60.0), 1.2)
  {
    var p := Point(400.0, 300.0);
    assert ZoomedScale(1.0, -200.0) == 1.2;
    assert ScreenToWorld(InitialCamera, p) == p;
  }
}

=== FILE: location_distribution.dfy ===
/** Quantity per location for the bar chart
    (src/components/visualization/LocationDistribution.tsx). */
module LocationDistribution {
  import opened Storage
  import opened Tally

  /** Sum of the quantities of the items stored at `location`. */
  function QuantityAt(items: seq<StorageItem>, location: string): int
  {
    if |items| == 0 then 0
    else
      var last := items[|items| - 1];
      QuantityAt(items[..|items| - 1], location) + (if last.location == location then last.quantity else 0)
  }

  /** Each item contributes its quantity under its location. */
  function Contributions(items: seq<StorageItem>): (cs: seq<Entry>)
    ensures |cs| == |items|
    ensures forall i | 0 <= i < |items| :: cs[i] == Entry(items[i].location, items[i].quantity)
  {
    seq(|items|, i requires 0 <= i < |items| => Entry(items[i].location, items[i].quantity))
  }

  /** Each location's contributions add up to the quantity stored there. */
  lemma {:induction false} ContributionsSum(items: seq<StorageItem>, location: string)
    ensures TotalFor(Contributions(items), location) == QuantityAt(items, location)
  {
    if |items| > 0 {
      var init := items[..|items| - 1];
      var cs := Contributions(items);
      ContributionsSum(init, location);
      assert cs == Contributions(init) + [cs[|cs| - 1]];
      SnocSums(Contributions(init), cs[|cs| - 1]);
    }
  }

  /** All contributions add up to the total quantity, and they name exactly
      the locations present. */
  lemma {:induction false} ContributionsCover(items: seq<StorageItem>)
    ensures Total(Contributions(items)) == TotalQuantity(items)
    ensures Names(Contributions(items)) == Locations(items)
  {
    var cs := Contributions(items);
    if |items| > 0 {
      var init := items[..|items| - 1];
      ContributionsCover(init);
      assert cs == Contributions(init) + [cs[|cs| - 1]];
      SnocSums(Contributions(init), cs[|cs| - 1]);
    }
    assert forall l :: l in Names(cs) <==> l in Locations(items) by {
      forall l | l in Locations(items) ensures l in Names(cs) {
        var i :| 0 <= i < |items| && items[i].location == l;
        assert cs[i].name == l;
      }
    }
  }

  /** `locationData`: one `{ name, quantity }` per distinct location, whose
      quantity is the sum over the items stored there. */
  function LocationData(items: seq<StorageItem>): (data: seq<Entry>)
    ensures DistinctNames(data)
    ensures Names(data) == Locations(items)
    ensures forall k | 0 <= k < |data| :: data[k].value == QuantityAt(items, data[k].name)
    ensures Total(data) == TotalQuantity(items)
    ensures |data| <= |items|
    ensures |items| == 0 ==> data == []
  {
    var cs := Contributions(items);
    var data := Tally.Tally(cs);
    ContributionsCover(items);
    assert forall k | 0 <= k < |data| :: data[k].value == QuantityAt(items, data[k].name) by {
      forall k | 0 <= k < |data|
        ensures data[k].value == QuantityAt(items, data[k].name)
      {
        TallyEntryValue(cs, k);
        ContributionsSum(items, data[k].name);
      }
    }
    data
  }
}

=== FILE: node_dragging.dfy ===
/** The drag state machine of the map view
    (src/components/visualization/canvas/useNodeDragging.ts). */
module NodeDragging {
  import opened Wrappers
  import opened CanvasTypes

  /** The four pieces of hook state. `dragStart` is the pointer-down point,
      `dragOffset` the pointer's displacement from it, both in screen units. */
  datatype DragState = DragState(
    isDragging: bool,
    dragStart: Point,
    dragOffset: Point,
    selectedNode: NodeRef<Node>)

  /** The hook's initial state. */
  const Initial := DragState(false, Origin, Origin, NoNode)

  /** A node can be selected only during a drag. */
  predicate SelectionOnlyWhileDragging(d: DragState)
  {
    !d.selectedNode.NoNode? ==> d.isDragging
  }

  /** `startDragging(node, startPoint)`: begin a node drag, or a pan when
      `node` is `NoNode`, anchored at `start`. */
  function StartDragging(d: DragState, node: NodeRef<Node>, start: Point): (d': DragState)
    ensures d'.isDragging && d'.selectedNode == node
    ensures d'.dragStart == start && d'.dragOffset == Origin
    ensures SelectionOnlyWhileDragging(d')
  {
    DragState(true, start, Origin, node)
  }

  /** `updateDragging(currentPoint)`: the displacement of `current` from the
      anchor, also stored as the drag offset; `None` (the source's `null`) and
      no change when no drag is active. */
  function UpdateDragging(d: DragState, current: Point): (r: (Option<Point>, DragState))
    ensures !d.isDragging ==> r.0 == None && r.1 == d
    ensures d.isDragging ==> r.0 == Some(r.1.dragOffset)
    ensures d.isDragging ==> Add(d.dragStart, r.1.dragOffset) == current
    ensures r.1.isDragging == d.isDragging && r.1.dragStart == d.dragStart
    ensures r.1.selectedNode == d.selectedNode
    ensures SelectionOnlyWhileDragging(d) ==> SelectionOnlyWhileDragging(r.1)
  {
    if !d.isDragging then (None, d)
    else
      var delta := Sub(current, d.dragStart);
      (Some(delta), d.(dragOffset := delta))
  }

  /** `stopDragging()`: end the drag; `dragStart` keeps its last value. */
  function StopDragging(d: DragState): (d': DragState)
    ensures !d'.isDragging && d'.selectedNode.NoNode? && d'.dragOffset == Origin
    ensures d'.dragStart == d.dragStart
    ensures SelectionOnlyWhileDragging(d')
  {
    d.(isDragging := false, selectedNode := NoNode, dragOffset := Origin)
  }

  /** The state after feeding the pointer positions `points` to `updateDragging`
      in order. */
  function UpdateAll(d: DragState, points: seq<Point>): DragState
  {
    if |points| == 0 then d else UpdateDragging(UpdateAll(d, points[..|points| - 1]), points[|points| - 1]).1
  }

  /** However many updates a drag sees, its offset is the last pointer position
      minus the original anchor: the anchor never moves, so earlier positions
      leave no trace. */
  lemma {:induction false} OffsetDependsOnlyOnLastPoint(d: DragState, points: seq<Point>)
    requires d.isDragging && |points| > 0
    ensures UpdateAll(d, points).dragOffset == Sub(points[|points| - 1], d.dragStart)
    ensures UpdateAll(d, points).dragStart == d.dragStart
    ensures UpdateAll(d, points).isDragging
    ensures UpdateAll(d, points).selectedNode == d.selectedNode
  {
    var n := |points|;
    if n > 1 {
      OffsetDependsOnlyOnLastPoint(d, points[..n - 1]);
    }
  }

  /** Without an active drag, any number of updates changes nothing. */
  lemma {:induction false} UpdatesWithoutDragAreInert(d: DragState, points: seq<Point>)
    requires !d.isDragging
    ensures UpdateAll(d, points) == d
  {
    if |points| > 0 {
      UpdatesWithoutDragAreInert(d, points[..|points| - 1]);
    }
  }
}

=== FILE: particles.dfy ===
/** The drifting background particles (src/components/canvas/useParticles.ts).
    `Math.random()` is a parameter: each particle is made from five draws, each
    in [0, 1). */
module Particles {
  datatype Particle = Particle(x: real, y: real, dx: real, dy: real, radius: real)

  /** The five `Math.random()` values `createParticle` consumes, in order. */
  datatype Draws = Draws(px: real, py: real, vx: real, vy: real, size: real)

  const DefaultCount: int := 50

  predicate Unit(r: real)
  {
    0.0 <= r < 1.0
  }

  predicate ValidDraws(d: Draws)
  {
    Unit(d.px) && Unit(d.py) && Unit(d.vx) && Unit(d.vy) && Unit(d.size)
  }

  function Abs(r: real): real
  {
    if r < 0.0 then -r else r
  }

  /** `Math.random() * extent`: in [0, extent) for a positive extent. */
  function Scale(draw: real, extent: real): (v: real)
    requires Unit(draw)
    ensures extent >= 0.0 ==> 0.0 <= v
    ensures extent > 0.0 ==> v < extent
    ensures extent == 0.0 ==> v == 0.0
  {
    var v := draw * extent;
    if extent > 0.0 then
      var rest := (1.0 - draw) * extent;
      assert rest > 0.0;
      assert v + rest == extent;
      v
    else
      v
  }

  /** `createParticle(width, height)`. */
  function CreateParticle(width: real, height: real, d: Draws): (p: Particle)
    requires ValidDraws(d)
    ensures width >= 0.0 ==> 0.0 <= p.x && (width > 0.0 ==> p.x < width)
    ensures height >= 0.0 ==> 0.0 <= p.y && (height > 0.0 ==> p.y < height)
    ensures -0.5 <= p.dx < 0.5 && -0.5 <= p.dy < 0.5
    ensures 1.0 <= p.radius < 3.0
  {
    Particle(Scale(d.px, width), Scale(d.py, height), (d.vx - 0.5) * 1.0, (d.vy - 0.5) * 1.0, d.size * 2.0 + 1.0)
  }

  /** `Array.from({ length: count })`: a negative length counts as zero. */
  function ParticleCount(count: int): (n: nat)
    ensures count >= 0 ==> n == count
    ensures count < 0 ==> n == 0
  {
    if count < 0 then 0 else count
  }

  /** `initParticles(width, height)` for the hook's `count`; `draws[i]` feeds
      the `i`-th particle. */
  function InitParticles(count: int, width: real, height: real, draws: seq<Draws>): (ps: seq<Particle>)
    requires |draws| == ParticleCount(count)
    requires forall i | 0 <= i < |draws| :: ValidDraws(draws[i])
    ensures |ps| == ParticleCount(count)
    ensures forall i | 0 <= i < |ps| :: ps[i] == CreateParticle(width, height, draws[i])
  {
    seq(|draws|, i requires 0 <= i < |draws| => CreateParticle(width, height, draws[i]))
  }

  /** With the default count the canvas starts with 50 particles, each inside
      the canvas and within the speed and size ranges. */
  lemma DefaultInit(width: real, height: real, draws: seq<Draws>)
    requires width > 0.0 && height > 0.0
    requires |draws| == ParticleCount(DefaultCount)
    requires forall i | 0 <= i < |draws| :: ValidDraws(draws[i])
    ensures var ps := InitParticles(DefaultCount, width, height, draws);
      && |ps| == 50
      && forall i | 0 <= i < |ps| ::
        && 0.0 <= ps[i].x < width && 0.0 <= ps[i].y < height
        && -0.5 <= ps[i].dx < 0.5 && -0.5 <= ps[i].dy < 0.5
        && 1.0 <= ps[i].radius < 3.0
  {
  }

  /** `updateParticle(particle, width, height)`, which mutates the particle in
      place; the model returns the updated value. */
  function UpdateParticle(p: Particle, width: real, height: real): (q: Particle)
    ensures q.x == p.x + p.dx && q.y == p.y + p.dy
    ensures q.dx == (if q.x < 0.0 || q.x > width then -p.dx else p.dx)
    ensures q.dy == (if q.y < 0.0 || q.y > height then -p.dy else p.dy)
    ensures Abs(q.dx) == Abs(p.dx) && Abs(q.dy) == Abs(p.dy) && q.radius == p.radius
  {
    var x, y := p.x + p.dx, p.y + p.dy;
    var dx := if x < 0.0 || x > width then -p.dx else p.dx;
    var dy := if y < 0.0 || y > height then -p.dy else p.dy;
    Particle(x, y, dx, dy, p.radius)
  }

  /** `n` animation frames. */
  function Frames(p: Particle, width: real, height: real, n: nat): Particle
  {
    if n == 0 then p else UpdateParticle(Frames(p, width, height, n - 1), width, height)
  }

  /** However many frames run, a particle keeps its speed along each axis and
      its size: updates only ever flip the sign of a velocity component. */
  lemma {:induction false} FramesKeepSpeedAndSize(p: Particle, width: real, height: real, n: nat)
    ensures var q := Frames(p, width, height, n);
      Abs(q.dx) == Abs(p.dx) && Abs(q.dy) == Abs(p.dy) && q.radius == p.radius
  {
    if n > 0 {
      FramesKeepSpeedAndSize(p, width, height, n - 1);
    }
  }

  /** A particle that was inside the canvas and steps over an edge comes out
      of the update moving back towards the inside. */
  lemma BounceTurnsInward(p: Particle, width: real, height: real)
    requires 0.0 <= p.x <= width && 0.0 <= p.y <= height
    ensures var q := UpdateParticle(p, width, height);
      && (q.x < 0.0 ==> q.dx > 0.0) && (q.x > width ==> q.dx < 0.0)
      && (q.y < 0.0 ==> q.dy > 0.0) && (q.y > height ==> q.dy < 0.0)
  {
  }
}

=== FILE: storage.dfy ===
/** The inventory record shared by every view (src/types/storage.ts). */
module Storage {
  import opened Wrappers

  /** One row of the `storage_items` table. `x` and `y` are `None` when the
      row has no persisted map position (`undefined` or `null`). */
  datatype StorageItem = StorageItem(
    id: string,
    name: string,
    quantity: int,
    category: string,
    location: string,
    createdAt: string,
    x: Option<real>,
    y: Option<real>)

  /** Sum of the quantities of `items`, folding from the left like `reduce`. */
  function TotalQuantity(items: seq<StorageItem>): int
  {
    if |items| == 0 then 0 else TotalQuantity(items[..|items| - 1]) + items[|items| - 1].quantity
  }

  /** The set of category labels that occur in `items`. */
  function Categories(items: seq<StorageItem>): set<string>
  {
    set i | 0 <= i < |items| :: items[i].category
  }

  /** The set of location labels that occur in `items`. */
  function Locations(items: seq<StorageItem>): set<string>
  {
    set i | 0 <= i < |items| :: items[i].location
  }
}

=== FILE: storage_grid.dfy ===
/** The realtime merge of the item grid (src/components/StorageGrid.tsx). */
module StorageGrid {
  import opened Wrappers
  import opened Storage

  /** `payload.new` of an UPDATE notification: each field present or absent.
      `x` and `y` can be present and null, hence the nested option. */
  datatype ItemPatch = ItemPatch(
    id: Option<string>,
    name: Option<string>,
    quantity: Option<int>,
    category: Option<string>,
    location: Option<string>,
    createdAt: Option<string>,
    x: Option<Option<real>>,
    y: Option<Option<real>>)

  function Pick<T>(present: Option<T>, kept: T): T
  {
    if present.Some? then present.value else kept
  }

  /** `{ ...item, ...patch }`: fields present in the patch win, all others
      are kept. */
  function Overlay(item: StorageItem, p: ItemPatch): (r: StorageItem)
    ensures p.id.Some? ==> r.id == p.id.value
    ensures p.id.None? ==> r.id == item.id
    ensures p.name.Some? ==> r.name == p.name.value
    ensures p.name.None? ==> r.name == item.name
    ensures p.quantity.Some? ==> r.quantity == p.quantity.value
    ensures p.quantity.None? ==> r.quantity == item.quantity
    ensures p.category.Some? ==> r.category == p.category.value
    ensures p.category.None? ==> r.category == item.category
    ensures p.location.Some? ==> r.location == p.location.value
    ensures p.location.None? ==> r.location == item.location
    ensures p.createdAt.Some? ==> r.createdAt == p.createdAt.value
    ensures p.createdAt.None? ==> r.createdAt == item.createdAt
    ensures p.x.Some? ==> r.x == p.x.value
    ensures p.x.None? ==> r.x == item.x
    ensures p.y.Some? ==> r.y == p.y.value
    ensures p.y.None? ==> r.y == item.y
  {
    StorageItem(
      Pick(p.id, item.id), Pick(p.name, item.name), Pick(p.quantity, item.quantity),
      Pick(p.category, item.category), Pick(p.location, item.location),
      Pick(p.createdAt, item.createdAt), Pick(p.x, item.x), Pick(p.y, item.y))
  }

  /** `item.id === payload.new.id`; an absent id matches nothing. */
  predicate Targets(p: ItemPatch, item: StorageItem)
  {
    p.id == Some(item.id)
  }

  /** The realtime handler: overlay the patch on the item(s) with its id. */
  function ApplyUpdate(items: seq<StorageItem>, p: ItemPatch): (r: seq<StorageItem>)
    ensures |r| == |items|
    ensures forall i | 0 <= i < |items| :: r[i].id == items[i].id
    ensures forall i | 0 <= i < |items| :: !Targets(p, items[i]) ==> r[i] == items[i]
    ensures forall i | 0 <= i < |items| :: Targets(p, items[i]) ==> r[i] == Overlay(items[i], p)
  {
    seq(|items|, i requires 0 <= i < |items| => if Targets(p, items[i]) then Overlay(items[i], p) else items[i])
  }

  /** Overlaying the same patch again changes nothing. */
  lemma OverlayIdempotent(item: StorageItem, p: ItemPatch)
    ensures Overlay(Overlay(item, p), p) == Overlay(item, p)
  {
  }

  /** A repeated notification leaves the list as the first one did. */
  lemma ApplyUpdateIdempotent(items: seq<StorageItem>, p: ItemPatch)
    ensures ApplyUpdate(ApplyUpdate(items, p), p) == ApplyUpdate(items, p)
  {
    var once := ApplyUpdate(items, p);
    forall i | 0 <= i < |items|
      ensures ApplyUpdate(once, p)[i] == once[i]
    {
      OverlayIdempotent(items[i], p);
    }
  }

  /** Grid events: a new `items` prop, or one realtime notification. */
  datatype GridEvent = ItemsProp(items: seq<StorageItem>) | Realtime(patch: ItemPatch)

  /** `localItems` after the events, starting from `local`. */
  function Replay(local: seq<StorageItem>, events: seq<GridEvent>): seq<StorageItem>
  {
    if |events| == 0 then local
    else
      var before := Replay(local, events[..|events| - 1]);
      match events[|events| - 1]
      case ItemsProp(items) => items
      case Realtime(p) => ApplyUpdate(before, p)
  }

  /** No notification among `events` names `id`. */
  predicate Untouched(id: string, events: seq<GridEvent>)
  {
    forall k | 0 <= k < |events| :: events[k].Realtime? ==> events[k].patch.id != Some(id)
  }

  /** After a new `items` prop and any number of notifications, the grid
      lists exactly the prop's ids, in order, and an item no notification
      named is shown exactly as the prop gave it. */
  lemma {:induction false} ResetThenUpdates(local: seq<StorageItem>, items: seq<StorageItem>, patches: seq<GridEvent>)
    requires forall k | 0 <= k < |patches| :: patches[k].Realtime?
    ensures var r := Replay(local, [ItemsProp(items)] + patches);
      && |r| == |items|
      && (forall i | 0 <= i < |items| :: r[i].id == items[i].id)
      && (forall i | 0 <= i < |items| :: Untouched(items[i].id, patches) ==> r[i] == items[i])
  {
    var n := |patches|;
    if n == 0 {
      assert [ItemsProp(items)] + patches == [ItemsProp(items)];
      assert Replay(local, [ItemsProp(items)]) == items;
    } else {
      var evs := [ItemsProp(items)] + patches;
      ResetThenUpdates(local, items, patches[..n - 1]);
      assert evs[..|evs| - 1] == [ItemsProp(items)] + patches[..n - 1];
      var before := Replay(local, evs[..|evs| - 1]);
      assert Replay(local, evs) == ApplyUpdate(before, patches[n - 1].patch);
      forall i | 0 <= i < |items| && Untouched(items[i].id, patches)
        ensures Replay(local, evs)[i] == items[i]
      {
        assert Untouched(items[i].id, patches[..n - 1]);
        assert patches[n - 1].patch.id != Some(items[i].id);
      }
    }
  }
}

=== FILE: supabase.dfy ===
/** Retry and fallback policy of the data layer (src/lib/supabase.ts). The
    client call is an abstract source of attempt outcomes: the k-th call of
    the operation yields `attempts[k]`. */
module Supabase {
  import opened Wrappers

  /** The fields of a thrown error that the retry decision reads. */
  datatype ErrorInfo = ErrorInfo(status: Option<int>, message: Option<string>)

  /** One call of the operation: it resolves with a value or throws. */
  datatype Attempt<T> = Returned(value: T) | Threw(error: ErrorInfo)

  /** How the retry promise settles. `Unsettled` means the attempt sequence
      ran out while the loop still wanted to call again. */
  datatype Settlement<T> = Resolved(value: T) | Rejected(error: ErrorInfo) | Unsettled

  /** A run of the retry loop: its settlement, the number of calls made, and
      the `retryCount` value of every backoff wait, in order. */
  datatype RetryRun<T> = RetryRun(settlement: Settlement<T>, calls: nat, backoffs: seq<nat>)

  /** A `{ data, error }` response: errors can come back inside it. */
  datatype Response<D> = Response(data: D, error: Option<ErrorInfo>)

  const DefaultMaxRetries: int := 3
  const RateLimited: int := 429
  const MaxBaseDelay: int := 10000
  const JitterSpan: real := 1000.0

  /** `s` holds `sub` starting at index `i`. */
  predicate OccursAt(s: string, sub: string, i: nat)
  {
    i + |sub| <= |s| && s[i..i + |sub|] == sub
  }

  /** `s.includes(sub)`. */
  predicate Contains(s: string, sub: string)
  {
    exists i: nat | i <= |s| :: OccursAt(s, sub, i)
  }

  /** Rate limiting (status 429) and token problems (a message mentioning
      "JWT") are retried; every other error is rethrown at once. */
  predicate Retryable(e: ErrorInfo)
  {
    e.status == Some(RateLimited) || (e.message.Some? && Contains(e.message.value, "JWT"))
  }

  /** Attempts `from` up to (not including) `to` all threw a retryable error
      and none of them was the `maxRetries`-th call. */
  predicate RetriedRange<T>(attempts: seq<Attempt<T>>, maxRetries: int, from: nat, to: nat)
    requires to <= |attempts|
  {
    forall j | from <= j < to :: attempts[j].Threw? && Retryable(attempts[j].error) && j + 1 != maxRetries
  }

  /** The loop entered with `retryCount` calls already failed. */
  function RetryFrom<T>(attempts: seq<Attempt<T>>, maxRetries: int, retryCount: nat): (run: RetryRun<T>)
    requires retryCount <= |attempts|
    decreases |attempts| - retryCount
    ensures retryCount <= run.calls <= |attempts|
    ensures retryCount < maxRetries ==> run.calls <= maxRetries
    ensures retryCount < maxRetries <= |attempts| ==> !run.settlement.Unsettled?
    ensures !run.settlement.Unsettled? ==> retryCount < run.calls
    ensures run.settlement.Resolved? ==> attempts[run.calls - 1] == Returned(run.settlement.value)
    ensures run.settlement.Rejected? ==>
      attempts[run.calls - 1] == Threw(run.settlement.error)
      && (run.calls == maxRetries || !Retryable(run.settlement.error))
    ensures run.settlement.Unsettled? ==> run.calls == |attempts|
    ensures !run.settlement.Unsettled? ==> RetriedRange(attempts, maxRetries, retryCount, run.calls - 1)
    ensures run.settlement.Unsettled? ==> RetriedRange(attempts, maxRetries, retryCount, run.calls)
    ensures |run.backoffs| == (if run.settlement.Unsettled? then run.calls else run.calls - 1) - retryCount
    ensures forall k | 0 <= k < |run.backoffs| :: run.backoffs[k] == retryCount + k + 1
  {
    if retryCount == |attempts| then RetryRun(Unsettled, retryCount, [])
    else
      match attempts[retryCount]
      case Returned(v) => RetryRun(Resolved(v), retryCount + 1, [])
      case Threw(e) =>
        var failed := retryCount + 1;
        if failed == maxRetries || !Retryable(e) then RetryRun(Rejected(e), failed, [])
        else
          var rest := RetryFrom(attempts, maxRetries, failed);
          rest.(backoffs := [failed] + rest.backoffs)
  }

  /** `retryWithBackoff(operation, maxRetries)`. */
  function RetryWithBackoff<T>(attempts: seq<Attempt<T>>, maxRetries: int): (run: RetryRun<T>)
    ensures run.calls <= |attempts|
    ensures !run.settlement.Unsettled? ==> run.calls >= 1
    ensures maxRetries >= 1 ==> run.calls <= maxRetries
    ensures maxRetries >= 1 && |attempts| >= maxRetries ==> !run.settlement.Unsettled?
    ensures run.settlement.Resolved? ==>
      RetriedRange(attempts, maxRetries, 0, run.calls - 1) && attempts[run.calls - 1] == Returned(run.settlement.value)
    ensures run.settlement.Rejected? ==>
      RetriedRange(attempts, maxRetries, 0, run.calls - 1) && attempts[run.calls - 1] == Threw(run.settlement.error)
    ensures |attempts| > 0 && attempts[0].Returned? ==> run == RetryRun(Resolved(attempts[0].value), 1, [])
    ensures |attempts| > 0 && attempts[0].Threw? && !Retryable(attempts[0].error) ==>
      run == RetryRun(Rejected(attempts[0].error), 1, [])
  {
    RetryFrom(attempts, maxRetries, 0)
  }

  /** Calls made, and where the loop stops, when every attempt offered throws
      a retryable error: with `maxRetries <= 0` the give-up test
      `retryCount === maxRetries` never fires, so the loop asks for attempts
      for as long as they fail. */
  lemma {:induction false} RetryableFailuresExhaust<T>(attempts: seq<Attempt<T>>, maxRetries: int)
    requires forall j | 0 <= j < |attempts| :: attempts[j].Threw? && Retryable(attempts[j].error)
    ensures maxRetries >= 1 && |attempts| >= maxRetries ==>
      RetryWithBackoff(attempts, maxRetries) == RetryRun(Rejected(attempts[maxRetries - 1].error), maxRetries, Range(1, maxRetries))
    ensures maxRetries <= 0 ==> RetryWithBackoff(attempts, maxRetries).settlement.Unsettled?
  {
  }

  /** The sequence `lo, lo + 1, ..., hi - 1`. */
  function Range(lo: int, hi: int): (r: seq<int>)
    decreases hi - lo
    ensures |r| == if lo <= hi then hi - lo else 0
    ensures forall k | 0 <= k < |r| :: r[k] == lo + k
  {
    if lo >= hi then [] else [lo] + Range(lo + 1, hi)
  }

  function Pow2(n: nat): (p: nat)
    ensures p >= 1
  {
    if n == 0 then 1 else 2 * Pow2(n - 1)
  }

  /** `Math.min(1000 * Math.pow(2, retryCount), 10000)`. */
  function BaseDelay(retryCount: nat): (ms: int)
    ensures 0 < ms <= MaxBaseDelay
  {
    if 1000 * Pow2(retryCount) < MaxBaseDelay then 1000 * Pow2(retryCount) else MaxBaseDelay
  }

  /** The wait after the failure that set `retryCount`, given the value `draw`
      of `Math.random()`. */
  function BackoffDelay(retryCount: nat, draw: real): (ms: real)
    requires 0.0 <= draw < 1.0
    ensures BaseDelay(retryCount) as real <= ms < BaseDelay(retryCount) as real + JitterSpan
  {
    BaseDelay(retryCount) as real + draw * JitterSpan
  }

  /** With the default limit the loop waits at most twice, first with
      `retryCount` 1 and then 2: 2000 to 3000 ms, then 4000 to 5000 ms. */
  lemma DefaultBackoffWindows<T>(attempts: seq<Attempt<T>>, draws: seq<real>)
    requires forall k | 0 <= k < |draws| :: 0.0 <= draws[k] < 1.0
    ensures var run := RetryWithBackoff(attempts, DefaultMaxRetries);
      |run.backoffs| <= 2
      && (|run.backoffs| >= 1 && |draws| >= 1 ==> 2000.0 <= BackoffDelay(run.backoffs[0], draws[0]) < 3000.0)
      && (|run.backoffs| >= 2 && |draws| >= 2 ==> 4000.0 <= BackoffDelay(run.backoffs[1], draws[1]) < 5000.0)
  {
    var run := RetryWithBackoff(attempts, DefaultMaxRetries);
    assert Pow2(1) == 2 && Pow2(2) == 4;
  }

  /** The `k`-th response delivered the data: every earlier call threw a
      retryable error, this one returned with no error, within the default
      three calls. */
  predicate Delivered<D>(attempts: seq<Attempt<Response<D>>>, k: nat)
  {
    && k < DefaultMaxRetries
    && k < |attempts|
    && RetriedRange(attempts, DefaultMaxRetries, 0, k)
    && attempts[k].Returned?
    && attempts[k].value.error.None?
  }

  /** `getStorageItems()` and `getCategories()`: the rows of the first
      error-free response, or `[]` on any failure, thrown or returned. */
  function FetchRows<R>(attempts: seq<Attempt<Response<seq<R>>>>): (rows: seq<R>)
    requires |attempts| >= DefaultMaxRetries
    ensures (exists k: nat :: Delivered(attempts, k) && rows == attempts[k].value.data)
      || ((forall k: nat :: !Delivered(attempts, k)) && rows == [])
  {
    var run := RetryWithBackoff(attempts, DefaultMaxRetries);
    match run.settlement
    case Resolved(response) =>
      if response.error.Some? then
        assert forall k: nat :: !Delivered(attempts, k);
        []
      else
        assert Delivered(attempts, run.calls - 1);
        response.data
    case Rejected(e) =>
      assert forall k: nat :: !Delivered(attempts, k);
      []
    case Unsettled =>
      assert false;
      []
  }

  /** `updateStorageItem(id, updates)`: true exactly when some call, within
      the default three, acknowledged the update without an error. */
  function UpdateStorageItem(attempts: seq<Attempt<Response<()>>>): (ok: bool)
    requires |attempts| >= DefaultMaxRetries
    ensures ok <==> exists k: nat :: Delivered(attempts, k)
  {
    var run := RetryWithBackoff(attempts, DefaultMaxRetries);
    match run.settlement
    case Resolved(response) =>
      if response.error.None? then
        assert Delivered(attempts, run.calls - 1);
        true
      else
        assert forall k: nat :: !Delivered(attempts, k);
        false
    case Rejected(e) =>
      assert forall k: nat :: !Delivered(attempts, k);
      false
    case Unsettled =>
      assert false;
      false
  }

  /** An error that comes back inside the response, rather than thrown, ends
      the loop at the first call: the wrappers then report failure without
      calling again. */
  lemma ReturnedErrorIsNotRetried<D>(attempts: seq<Attempt<Response<D>>>, e: ErrorInfo)
    requires |attempts| >= DefaultMaxRetries
    requires attempts[0].Returned? && attempts[0].value.error == Some(e)
    ensures RetryWithBackoff(attempts, DefaultMaxRetries).calls == 1
    ensures forall k: nat :: !Delivered(attempts, k)
  {
    forall k: nat ensures !Delivered(attempts, k) {
      if 0 < k < |attempts| {
        assert !RetriedRange(attempts, DefaultMaxRetries, 0, k) by {
          assert !attempts[0].Threw?;
        }
      }
    }
  }

  /** The wrappers' failure results for such a response. */
  lemma ReturnedErrorFails<R>(rows: seq<Attempt<Response<seq<R>>>>, acks: seq<Attempt<Response<()>>>, e: ErrorInfo)
    requires |rows| >= DefaultMaxRetries && rows[0].Returned? && rows[0].value.error == Some(e)
    requires |acks| >= DefaultMaxRetries && acks[0].Returned? && acks[0].value.error == Some(e)
    ensures FetchRows(rows) == []
    ensures !UpdateStorageItem(acks)
  {
    ReturnedErrorIsNotRetried(rows, e);
    ReturnedErrorIsNotRetried(acks, e);
  }
}

=== FILE: tally.dfy ===
/** The `reduce` into a `Record<string, number>` followed by
    `Object.entries` that both charts use: per-name totals, one entry per
    distinct name, in order of first appearance. */
module Tally {

  /** One `[name, value]` pair, also one contribution to the fold. */
  datatype Entry = Entry(name: string, value: int)

  function Names(es: seq<Entry>): set<string>
  {
    set i | 0 <= i < |es| :: es[i].name
  }

  lemma NamesSnoc(es: seq<Entry>, e: Entry)
    ensures Names(es + [e]) == Names(es) + {e.name}
  {
    var r := es + [e];
    forall n | n in Names(r) ensures n in Names(es) + {e.name} {
      var i :| 0 <= i < |r| && r[i].name == n;
      if i < |es| {
        assert es[i].name == n;
      }
    }
    forall n | n in Names(es) ensures n in Names(r) {
      var i :| 0 <= i < |es| && es[i].name == n;
      assert r[i].name == n;
    }
    assert r[|es|].name == e.name;
  }

  predicate DistinctNames(es: seq<Entry>)
  {
    forall i, j | 0 <= i < j < |es| :: es[i].name != es[j].name
  }

  /** Sum of all values. */
  function Total(es: seq<Entry>): int
  {
    if |es| == 0 then 0 else Total(es[..|es| - 1]) + es[|es| - 1].value
  }

  /** Sum of the values carried under `name`. */
  function TotalFor(es: seq<Entry>, name: string): int
  {
    if |es| == 0 then 0
    else TotalFor(es[..|es| - 1], name) + (if es[|es| - 1].name == name then es[|es| - 1].value else 0)
  }

  /** Number of entries carrying `name`. */
  function CountFor(es: seq<Entry>, name: string): nat
  {
    if |es| == 0 then 0
    else CountFor(es[..|es| - 1], name) + (if es[|es| - 1].name == name then 1 else 0)
  }

  lemma SnocSums(es: seq<Entry>, e: Entry)
    ensures Total(es + [e]) == Total(es) + e.value
    ensures forall n :: TotalFor(es + [e], n) == TotalFor(es, n) + (if e.name == n then e.value else 0)
    ensures forall n :: CountFor(es + [e], n) == CountFor(es, n) + (if e.name == n then 1 else 0)
  {
    assert (es + [e])[..|es|] == es;
  }

  /** A name not yet present may be appended without breaking distinctness. */
  lemma SnocDistinct(es: seq<Entry>, e: Entry)
    requires DistinctNames(es) && e.name !in Names(es)
    ensures DistinctNames(es + [e])
  {
    var r := es + [e];
    forall i, j | 0 <= i < j < |r| ensures r[i].name != r[j].name {
      if j == |es| {
        assert es[i].name in Names(es);
      }
    }
  }

  /** `acc[name] = (acc[name] || 0) + amount`: bump the entry of `name` in
      place, or append a new entry when the record has no such key. */
  function Bump(acc: seq<Entry>, name: string, amount: int): (r: seq<Entry>)
    requires DistinctNames(acc)
    ensures DistinctNames(r)
    ensures Names(r) == Names(acc) + {name}
    ensures |r| == if name in Names(acc) then |acc| else |acc| + 1
    ensures forall n :: TotalFor(r, n) == TotalFor(acc, n) + (if n == name then amount else 0)
    ensures Total(r) == Total(acc) + amount
  {
    if |acc| == 0 then
      NamesSnoc([], Entry(name, amount));
      SnocSums([], Entry(name, amount));
      assert [] + [Entry(name, amount)] == [Entry(name, amount)];
      [Entry(name, amount)]
    else
      var init, last := acc[..|acc| - 1], acc[|acc| - 1];
      assert acc == init + [last];
      NamesSnoc(init, last);
      SnocSums(init, last);
      assert last.name !in Names(init) by {
        forall i | 0 <= i < |init| ensures init[i].name != last.name {
          assert acc[i] == init[i];
        }
      }
      if last.name == name then
        var e := Entry(name, last.value + amount);
        NamesSnoc(init, e);
        SnocSums(init, e);
        SnocDistinct(init, e);
        init + [e]
      else
        var bumped := Bump(init, name, amount);
        NamesSnoc(bumped, last);
        SnocSums(bumped, last);
        SnocDistinct(bumped, last);
        bumped + [last]
  }

  /** With distinct names, an entry's value is the total under its name. */
  lemma {:induction false} TotalForDistinct(es: seq<Entry>, k: nat)
    requires DistinctNames(es) && k < |es|
    ensures TotalFor(es, es[k].name) == es[k].value
  {
    var init, last := es[..|es| - 1], es[|es| - 1];
    assert es == init + [last];
    SnocSums(init, last);
    if k == |es| - 1 {
      assert TotalFor(init, last.name) == 0 by {
        assert forall i | 0 <= i < |init| :: init[i].name != last.name;
        AbsentTotalsZero(init, last.name);
      }
    } else {
      TotalForDistinct(init, k);
    }
  }

  lemma {:induction false} AbsentTotalsZero(es: seq<Entry>, name: string)
    requires forall i | 0 <= i < |es| :: es[i].name != name
    ensures TotalFor(es, name) == 0 && CountFor(es, name) == 0
  {
    if |es| > 0 {
      AbsentTotalsZero(es[..|es| - 1], name);
    }
  }

  /** The fold over `contributions` from an empty record. */
  function Tally(contributions: seq<Entry>): (r: seq<Entry>)
    ensures DistinctNames(r)
    ensures Names(r) == Names(contributions)
    ensures forall n :: TotalFor(r, n) == TotalFor(contributions, n)
    ensures Total(r) == Total(contributions)
    ensures |r| <= |contributions|
  {
    if |contributions| == 0 then []
    else
      var init, last := contributions[..|contributions| - 1], contributions[|contributions| - 1];
      assert contributions == init + [last];
      NamesSnoc(init, last);
      SnocSums(init, last);
      Bump(Tally(init), last.name, last.value)
  }

  /** Each entry of the tally carries the total of its name's contributions. */
  lemma TallyEntryValue(contributions: seq<Entry>, k: nat)
    requires k < |Tally(contributions)|
    ensures Tally(contributions)[k].value == TotalFor(contributions, Tally(contributions)[k].name)
  {
    TotalForDistinct(Tally(contributions), k);
  }

  /** Every name counted at least once when each contribution is 1. */
  lemma {:induction false} UnitTotalIsCount(cs: seq<Entry>, name: string)
    requires forall k | 0 <= k < |cs| :: cs[k].value == 1
    ensures TotalFor(cs, name) == CountFor(cs, name)
    ensures name in Names(cs) ==> CountFor(cs, name) >= 1
  {
    if |cs| > 0 {
      var init := cs[..|cs| - 1];
      UnitTotalIsCount(init, name);
      assert cs == init + [cs[|cs| - 1]];
      NamesSnoc(init, cs[|cs| - 1]);
      SnocSums(init, cs[|cs| - 1]);
    }
  }

  /** With distinct names the name set is as large as the list. */
  lemma {:induction false} DistinctNamesCount(es: seq<Entry>)
    requires DistinctNames(es)
    ensures |Names(es)| == |es|
  {
    if |es| > 0 {
      var init := es[..|es| - 1];
      DistinctNamesCount(init);
      assert es == init + [es[|es| - 1]];
      NamesSnoc(init, es[|es| - 1]);
      assert es[|es| - 1].name !in Names(init);
    }
  }
}

=== FILE: visualization_stats.dfy ===
/** The four summary figures above the charts
    (src/components/visualization/VisualizationStats.tsx). */
module VisualizationStats {
  import opened Storage
  import opened Tally
  import CategoryChart
  import LocationDistribution

  datatype Stats = Stats(totalItems: int, uniqueCategories: nat, uniqueLocations: nat, itemTypes: nat)

  /** `stats`: summed quantity, distinct categories and locations (`new
      Set(...).size`), and the number of items. The figures agree with the
      charts: the total is the sum of the bar heights, and the distinct counts
      are the numbers of pie slices and bars. */
  function ComputeStats(items: seq<StorageItem>): (st: Stats)
    ensures st.itemTypes == |items|
    ensures st.totalItems == Total(LocationDistribution.LocationData(items))
    ensures st.uniqueCategories == |CategoryChart.CategoryData(items)|
    ensures st.uniqueLocations == |LocationDistribution.LocationData(items)|
    ensures st.uniqueCategories <= st.itemTypes && st.uniqueLocations <= st.itemTypes
    ensures |items| == 0 ==> st == Stats(0, 0, 0, 0)
    ensures |items| > 0 ==> st.uniqueCategories >= 1 && st.uniqueLocations >= 1
  {
    var st := Stats(TotalQuantity(items), |Categories(items)|, |Locations(items)|, |items|);
    DistinctNamesCount(CategoryChart.CategoryData(items));
    DistinctNamesCount(LocationDistribution.LocationData(items));
    if |items| > 0 then
      assert items[0].category in Categories(items);
      assert items[0].location in Locations(items);
      st
    else
      st
  }
}

=== FILE: wrappers.dfy ===
/** Optional values: the model of `T | null` and of optional record fields. */
module Wrappers {

  datatype Option<+T> = None | Some(value: T)
}
